=== FILE: README.md ===
# Trader listing synchroniser and sales monitor, modelled in Dafny

Two small desktop helpers manage a player's in-game trader listings.

**The synchroniser** (`bzr_sync_app.py`) works on a folder of listing files named
`BZR_<trader>_pq.proj.ini`. Each file has an `[ItemToSell]` section with one
`name=price` line per item, prices in copper. It works in three steps:

- It reads every file.
- For each item, it takes the lowest strictly positive price found in any file.
- It writes that price into every file, adding missing items and never removing one.
  Only the files that change are rewritten, and a rewrite replaces just the section.
  It can also create the listing of a new trader from the synchronised prices.

**The sales monitor** (`trader_monitor_fixed.py`) works on one character. It reads
that character's listing for prices, with the header matched ignoring case. It also
reads the character's inventory file: one tab-separated line per satchel slot. Each
time the inventory file's modification time moves forward, it compares the new
snapshot with the one it kept. Items whose slot emptied are reported as sold, at
their price when they have a positive one.

The model is pure. Files are their text. A missing file is `None`. A folder is a
sequence of texts or a map from file name to text.

Python dicts keep insertion order, and the output depends on it (item order in an
appended section, sale order). So dicts are association lists with unique keys:
`d[k] = v` overwrites in place or appends. The Python string operations the code
relies on are written out in `Text`: `strip`, `split`, `int()`, `str()`, and the
code-point order `sorted` uses.

Modules:

- `Wrappers`: `Option`, `Result`.
- `Text`: the string operations.
- `Dict`: the dict as an association list, the "collect lines into a dict" loop,
  and the sort by key.
- `Listing`: the listing file, in both header dialects.
- `Reconcile`: synchronisation and the new-trader file.
- `Inventory`: the inventory file.
- `Monitor`: prices, sale detection, the display filter, the poll decision and
  loading a character.

The section search follows the regular expression exactly. The section body ends at
the first `[` after the header, or at the end of the text. Because `$` without
MULTILINE also matches just before a final newline, a section running to the end of
the text stops before that last newline. That has one consequence for rewriting:

- Rewriting a section that some text follows (another section, or the final newline)
  is stable. A second write with the same items changes nothing (`RewriteStable`).
- Rewriting a section that runs to the very end of the text is not stable. The first
  write ends the text with the section's newline. The second write leaves that
  newline out of the section and keeps it, so the text grows by one newline
  (`RewriteAtEndGrows`).
- From the second write on, the text is stable (`WriteSettles`).

Rewriting is therefore idempotent except in one case, a section that runs to the very
end of the text, and these three lemmas state exactly when it holds.

The guard that would add a newline after a regenerated section that lacks one
(`bzr_sync_app.py` lines 173-174) can never fire, because every generated line ends
in a newline. `WriteListing` leaves it out.

The two programs read a body line the same way but for the price. The synchroniser
hands the text after `=` to `int()` as it is (`bzr_sync_app.py` line 138). The monitor
strips it first (`trader_monitor_fixed.py` line 402). `strip()` removes the ASCII
information separators U+001C to U+001F, but `int()` rejects them. So a line such as
`Sword=\x1c100` is read by the monitor and skipped by the synchroniser
(`Listing.SeparatorPriceReadOnlyByMonitor`). Without such characters the two read the
same prices (`Listing.SectionReadsAlike`).

The monitor keeps its snapshot only when a check finds a sale. As a consequence, an
item put up after the last sale and sold before any other sale is never reported.
`Monitor.NewItemSaleUnreported` shows this on a concrete pair of checks. The model
keeps this behaviour as written.

## Model

| member | source | states |
|---|---|---|
| Text.Strip | bzr_sync_app.py:133-134 | `str.strip()`: the result has no white space at either end and holds only characters of the text; `StripSlice`, `StripOfStripped`, `StripDropsLeadingSpace` and `StripDropsTrailingSpace` pin down that only end white space is removed |
| Text.StripSlice | bzr_sync_app.py:133-134 | the stripped text is a slice of the text with only white space before and after it |
| Text.StripOfStripped | trader_monitor_fixed.py:396-397 | a text with no white space at its ends is left unchanged |
| Text.StripDropsLeadingSpace | trader_monitor_fixed.py:396-397 | a leading white-space character does not change the result |
| Text.StripDropsTrailingSpace | trader_monitor_fixed.py:396-397 | a trailing white-space character does not change the result |
| Text.Split | bzr_sync_app.py:133 | `split('\n')`: no piece holds the separator, and the pieces joined with it give back the text |
| Text.SplitJoin | bzr_sync_app.py:133 | splitting the join of separator-free pieces gives back exactly those pieces |
| Text.ParseInt | bzr_sync_app.py:138 | `int()` accepts only a text free of information separators (U+001C to U+001F) whose stripped form is digits and single underscores ending in a digit, with at most one leading sign; a negative result comes from a leading `-`; a plain digit string reads as its decimal value |
| Text.StrippedParseInt | trader_monitor_fixed.py:402 | without information separators, `int(s.strip())` equals `int(s)` |
| Text.IntToString | bzr_sync_app.py:170 | `str(n)`: non-empty, ends in a digit, only digits and `-`, and starts with `-` exactly when `n` is negative |
| Text.SplitCons | trader_monitor_fixed.py:426 | splitting at the first separator gives the piece before it followed by the pieces of the rest |
| Text.ParseIntToString | bzr_sync_app.py:138 | `int(str(n)) == n` for every integer, so a written price reads back unchanged |
| Text.StrLessTotal | bzr_sync_app.py:169 | any two different names are ordered one way or the other by the order `sorted` uses |
| Text.StrLessTransitive | bzr_sync_app.py:169 | that order is transitive |
| Dict.Set | bzr_sync_app.py:253-262 | `d[k] = v`: the map gains or updates `k`, an existing key keeps its position, a new key is appended, and keys stay unique |
| Dict.SortByKeySorted | bzr_sync_app.py:169 | `sorted(items.items())` gives the same entries in strictly increasing name order, with the same map |
| Dict.CollectLastWins | bzr_sync_app.py:133-139 | in the line-by-line dict build, the last line that yields a key decides its value |
| Dict.CollectSound | bzr_sync_app.py:133-139 | every key of the built dict either was already there with its value or was produced, with its value, by one of the lines |
| Listing.FindHeaderFrom | bzr_sync_app.py:126 | the search returns the first position where the header matches, and none when there is none |
| Listing.SectionEnd | bzr_sync_app.py:126 | the section ends at the first `[`, the end of the text, or a final newline, whichever comes first |
| Listing.Locate | bzr_sync_app.py:126 | the header found is a match, and the section it opens ends within the text; `FindHeaderFrom` and `SectionEnd` make it the first match and the first boundary, as the same expression does at line 155 |
| Listing.Decode | bzr_sync_app.py:126-128 | the read dict has unique names, and a text without the header gives an empty dict |
| Listing.MalformedLineSkipped | bzr_sync_app.py:133-141 | in either reader, a line without `=`, starting with `[`, or whose value that reader cannot turn into an integer is dropped, and later lines are still read |
| Listing.LastLineWins | bzr_sync_app.py:136-139 | in either reader, of several lines with the same stripped name, the last valid one sets the price |
| Listing.DecodeNamesClean | bzr_sync_app.py:133-139 | every name read is stripped and holds no `=`, `[` or newline |
| Listing.ParseItemLine | bzr_sync_app.py:134-139 | a line is read only when, stripped, it holds `=` and does not start with `[`; the name is the stripped text before the first `=`, holds no `=`, and the price is what the reader's `int()` call makes of the text after it: `int(price_str)` in the synchroniser, `int(price.strip())` in the monitor (trader_monitor_fixed.py lines 398-402) |
| Listing.SeparatorPriceReadOnlyByMonitor | trader_monitor_fixed.py:398-402 | a line `name=\x1c<price>` is read by the monitor as that price and skipped by the synchroniser (bzr_sync_app.py lines 136-141) |
| Listing.SeparatedPriceRead | trader_monitor_fixed.py:402 | a price written after U+001C is no integer to the synchroniser's `int(price_str)` and reads as that price through the monitor's `int(price.strip())` |
| Listing.SectionReadsAlike | trader_monitor_fixed.py:396-402 | a section free of information separators gives the monitor and the synchroniser the same items |
| Listing.ParseItemLineOfItem | bzr_sync_app.py:135-139 | a written `name=price` line reads back as exactly that entry, in either reader |
| Listing.RenderIsJoin | bzr_sync_app.py:161-162 | the rendered items are one `name=price` line per item, in the given order, joined and ended by newlines; the replace branch renders the items sorted (lines 169-170) |
| Listing.WriteListing | bzr_sync_app.py:155-176 | with the header, the text before the header and from the section end on is kept; without it, the old text is kept as a prefix |
| Listing.ReplacedShape | bzr_sync_app.py:164-176 | with the header, the written text is the text before the header, the header, one `name=price` line per item sorted by name, and the old text from the section end on |
| Listing.AppendedSection | bzr_sync_app.py:156-162 | without the header, the written text starts with the old text whole; the first header then found starts a line, right after the old text or one newline later, and it is right after exactly when the old text is non-empty and ends in a newline; from the header on come the items in dict order |
| Listing.WriteThenDecode | bzr_sync_app.py:155-176 | reading a rewritten text gives the written items, sorted by name when a section was replaced and in dict order when one was appended |
| Listing.DecodeFresh | bzr_sync_app.py:168-170 | a text made of a regenerated section alone reads back as its items |
| Listing.RewriteStable | bzr_sync_app.py:155-176 | rewriting a section that some text follows, with the same items, gives the same text again |
| Listing.RewriteAtEndGrows | bzr_sync_app.py:155-176 | rewriting a section that runs to the end of the text, with the same items, adds exactly one newline |
| Listing.WriteSettles | bzr_sync_app.py:155-176 | a third write with the same items gives the same text as the second |
| Reconcile.PricesOfOffers | bzr_sync_app.py:206-214 | a price is gathered for a name exactly when some file lists that name at that price |
| Reconcile.GatherLookup | bzr_sync_app.py:203-216 | the collection loop records, for each name, its prices in file order, and records the name exactly when some file lists it |
| Reconcile.Gather | bzr_sync_app.py:219-221 | nothing is gathered exactly when every file read is empty |
| Reconcile.LowestPositive | bzr_sync_app.py:228-231 | a result exists exactly when some price is positive; it is one of the positive prices and no larger than any of them |
| Reconcile.LowestPositiveOrderFree | bzr_sync_app.py:228-231 | the lowest positive price depends only on which positive prices occur |
| Reconcile.CanonicalAt | bzr_sync_app.py:226-231 | the table's entry for a name is the lowest positive price gathered for it, and there is none when it has no positive price |
| Reconcile.Table | bzr_sync_app.py:224-231 | the synchronised table has unique names; `TableSpec` states which names it holds and at what price |
| Reconcile.TableSpec | bzr_sync_app.py:203-231 | a name is in the table exactly when some file lists it at a positive price; its price is one of those listed and is at most every positive listing |
| Reconcile.TablePermutation | bzr_sync_app.py:203-231 | reading the same files in another order gives the same table |
| Reconcile.Propagate | bzr_sync_app.py:252-262 | propagation keeps every existing name in its place, never removes one, and keeps names unique |
| Reconcile.PropagateMap | bzr_sync_app.py:252-262 | after propagation a file maps every table name to its table price, and every other name to its old price |
| Reconcile.PropagateChanged | bzr_sync_app.py:249-262 | the file is marked changed exactly when the table holds a name the file lacks or prices differently |
| Reconcile.PropagateChangedIffDifferent | bzr_sync_app.py:249-264 | the changed mark is set exactly when the file's dict differs afterwards |
| Reconcile.PropagateSettles | bzr_sync_app.py:252-264 | propagating the same table again marks nothing as changed |
| Reconcile.UpdateFile | bzr_sync_app.py:245-268 | a file is rewritten exactly when its items disagree with the table, and then with items whose map is the old one overridden by the table |
| Reconcile.Synchronize | bzr_sync_app.py:186-264 | refused for want of a folder exactly when none is chosen, for want of files exactly when a folder is chosen but holds none, and with "no items found" exactly when all files read empty; synchronised exactly when some file lists an item, and then one update per file and the table of all files |
| Reconcile.SynchronizeFile | bzr_sync_app.py:245-266 | after synchronisation each file reads back as its old dict overridden by the table, and it is rewritten exactly when it disagreed with the table |
| Reconcile.NewTraderFile | bzr_sync_app.py:283-313 | the file is made exactly when a folder, a non-blank trader name and synchronised items exist and overwriting is allowed; a declined overwrite is reported as such |
| Reconcile.NewTraderFileReadsBack | bzr_sync_app.py:310-313 | the new trader's file reads back as the synchronised items sorted by name |
| Reconcile.NewTraderAfterSync | bzr_sync_app.py:239 | a new trader file made after a synchronisation lists exactly the canonical prices |
| Inventory.IsSlotNameIff | trader_monitor_fixed.py:433 | the slot test accepts exactly the names that start with `General`, digits, `-Slot`, digits |
| Inventory.ParseInventoryLine | trader_monitor_fixed.py:424-434 | a kept line has a tab, a satchel slot as first field and a name other than `Empty` |
| Inventory.LoadInventory | trader_monitor_fixed.py:415-439 | a snapshot has unique slots, every slot is a satchel slot, and no item is `Empty`; a missing file gives an empty snapshot |
| Inventory.LoadInventorySound | trader_monitor_fixed.py:423-434 | every snapshot entry was read from one line of the file |
| Inventory.MalformedInventoryLineSkipped | trader_monitor_fixed.py:424-427 | a line without a tab or with fewer than three fields adds nothing, and later lines are still read |
| Inventory.LaterSlotLineWins | trader_monitor_fixed.py:433-434 | a valid line for a slot that no later line mentions decides that slot's item |
| Inventory.SlotLineRead | trader_monitor_fixed.py:424-434 | a stripped `slot<TAB>name<TAB>id` line, with any further tab-separated fields after the id, is read as that slot and item |
| Monitor.LoadPrices | trader_monitor_fixed.py:377-413 | `load_bzr_file`: the prices read have unique, stripped names free of `=`, `[` and newline, and a text with no header in any case gives no prices |
| Monitor.ExactHeaderFoundIgnoringCase | trader_monitor_fixed.py:389 | wherever the header is spelled exactly, the case-insensitive search matches too |
| Monitor.LowerCaseHeaderAccepted | trader_monitor_fixed.py:389 | the monitor accepts `[itemtosell]`, which the synchroniser does not |
| Monitor.MonitorFindsSameSection | trader_monitor_fixed.py:389 | when no case variant of the header precedes the exact one, the monitor locates the same section as the synchroniser |
| Monitor.MonitorReadsAsSynchronizer | trader_monitor_fixed.py:389-405 | when no case variant of the header precedes the exact one and the text holds no information separator, the monitor reads the same prices as the synchroniser |
| Monitor.MonitorReadsFreshListing | trader_monitor_fixed.py:389-405 | a listing holding one regenerated section gives the monitor exactly its items |
| Monitor.PriceOf | trader_monitor_fixed.py:554 | an item has a price exactly when its name is listed with a positive price, and then it is that price |
| Monitor.SoldEntries | trader_monitor_fixed.py:544-547 | an entry is sold exactly when it was in the previous snapshot and its slot is not in the current one |
| Monitor.SoldEntriesAppend | trader_monitor_fixed.py:544-547 | the sales of a snapshot made of two parts are the first part's sales followed by the second's, so they keep the previous snapshot's order |
| Monitor.NothingSoldWhileOccupied | trader_monitor_fixed.py:544-545 | nothing is sold while every previously filled slot is still filled |
| Monitor.NothingSoldWhenUnchanged | trader_monitor_fixed.py:544-547 | two identical snapshots give no sale |
| Monitor.EverythingSoldWhenFileMissing | trader_monitor_fixed.py:417-421 | a missing inventory file reads as an empty snapshot, so every previous entry counts as sold |
| Monitor.LoggedSales | trader_monitor_fixed.py:553-562 | a sold item is logged exactly when it has a positive price, and it is logged at that price |
| Monitor.LoggedSaleOne | trader_monitor_fixed.py:553-557 | one sold entry gives one log line at its price when it has a positive price, and none otherwise |
| Monitor.LoggedSalesAppend | trader_monitor_fixed.py:553-557 | the log of two runs of sold entries is the first run's log followed by the second's: one line per priced entry, in sold order, duplicates kept |
| Monitor.CheckForSales | trader_monitor_fixed.py:533-567 | the sold entries are exactly the previous entries whose slot is now empty; a sale is logged for a sold item exactly when it has a positive price, at that price, one line per sold entry in sold order; the kept snapshot becomes the current one when something sold, and otherwise stays, with nothing logged |
| Monitor.OccupiedSlotNotSold | trader_monitor_fixed.py:544-545 | a slot still occupied, even by another item, is never reported |
| Monitor.CheckAgainReportsNothing | trader_monitor_fixed.py:544-567 | checking again against the same inventory reports nothing and keeps the same snapshot |
| Monitor.SwordSold | trader_monitor_fixed.py:544-556 | a priced sword leaving its slot is reported once, at its price |
| Monitor.NewItemSaleUnreported | trader_monitor_fixed.py:552-567 | an item added after the last sale and sold before any other sale is never reported |
| Monitor.Displayed | trader_monitor_fixed.py:454-458 | the shown items are exactly the satchel items with a positive price, at that price |
| Monitor.DisplayPartition | trader_monitor_fixed.py:454-470 | every satchel item is either shown or counted as ignored |
| Monitor.StartWatch | trader_monitor_fixed.py:512 | the remembered time starts at the file's time, or 0 when there is no file |
| Monitor.StartThenPoll | trader_monitor_fixed.py:512-520 | after starting, a file not modified since the start is not checked, a later time is; a file missing at the start is checked once it shows a positive time |
| Monitor.Poll | trader_monitor_fixed.py:517-525 | a check happens exactly when the file exists and its time is strictly later; the remembered time then becomes that time, otherwise it stays |
| Monitor.PollSameTimeIdle | trader_monitor_fixed.py:517-525 | a second pass that sees the same modification time does not check again |
| Monitor.PollAllLatest | trader_monitor_fixed.py:515-525 | after any run of passes the remembered time is the latest of the starting time and every time seen |
| Monitor.LoadSession | trader_monitor_fixed.py:338-366 | loading succeeds exactly when a name, a directory and both files exist, and reads the prices and the first snapshot from them |
| Monitor.Tick | trader_monitor_fixed.py:517-525 | a pass with no inventory file changes nothing; a pass whose file time is later than the remembered one reports exactly the sales of `check_for_sales` against the file's snapshot and keeps the snapshot it leaves; any pass that reports a sale is such a pass; the remembered time never goes back and the prices are kept |
| Monitor.TickTwiceReportsOnce | trader_monitor_fixed.py:517-525 | a second pass over an unchanged file reports nothing and changes nothing |
| Monitor.MonitorLoadsNewTraderFile | trader_monitor_fixed.py:282-286 | the synchroniser's new trader file is the listing the monitor loads for that character, and it yields the synchronised prices sorted by name |

## Left out

- The Tkinter interface: windows, lists, message boxes, the log panes and the debug log. This is presentation only.
- Configuration load and save (`configparser`), and the PQDI web link. These are persistence and a foreign call.
- Reading, writing and listing files: `open`, `os.path.exists`, `glob`, `getmtime`. A file is its text, a missing file is `None`, and the files a folder scan finds are a sequence of texts in the order found.
- Decoding with `errors='ignore'` and the universal-newline translation of text mode. The model starts from the decoded text, with newlines already `\n`.
- Reconcile.Synchronize: a failed read or write is not modelled (the source logs it and goes on). Every rewrite is taken to succeed.
- The count of files updated and the summary messages. These are only logged.
- The monitoring thread, its two-second sleep and the `monitoring` flag. An exception ends the loop; that is not modelled either. Only one pass of the loop is modelled (`Poll`, `Tick`).
- Reconcile.UpdateFile: rewrites the text that was read for parsing. `write_bzr_file` opens and reads the file a second time (bzr_sync_app.py lines 150-152) and rewrites that text; the model takes the file to be unchanged in between.
- Monitor.Tick: the file is taken to be the same in the existence test, the time read and the snapshot read. The source reads it three times, and it may change in between.
- Monitor.Watch: modification times are integers. The source compares float seconds.
- Monitor.LoadPrices: prices stay in integer copper. The source stores `copper / 1000.0` platinum and only compares it with zero, which gives the same answer for every copper value a float can hold. The platinum formatting of the display and the sales log is not modelled.
- Monitor.LoadPrices: a copper value of magnitude about 2^1024 (1.8 × 10^308) or more is not modelled as a failure. In the source, `copper / 1000.0` raises `OverflowError` for such a value. `except ValueError` does not catch it, so `load_character_data` shows an error and loads neither the prices nor the first snapshot (trader_monitor_fixed.py:359-375). The model reads the value and still succeeds.
- Monitor.LoadSession: for the same reason, it succeeds on such a listing, where the source reports an error.
- The requirement that prices be loaded before monitoring or a manual check may start. This is a UI guard.
- Text.ParseInt: accepts ASCII digits only. Python's `int()` also accepts other Unicode decimal digits.
- Text.ParseInt: has no length limit. From Python 3.11, `int()` refuses a text of more than 4300 digits with `ValueError`, so both readers skip such a line, while the model reads it. `str()` has the same limit, but a write only ever formats prices that were read, so the limit is never reached on that side.
- Inventory.IsSlotName: `\d` is taken as an ASCII digit. Python's `\d` on `str` also matches other Unicode decimal digits.
- Listing.FoldMatches: case-insensitive matching is modelled only for characters that can match a letter of the header: ASCII letters, U+0130, U+0131 and U+017F.

=== FILE: dict.dfy ===
/** A Python `dict` as the sequence of its entries in insertion order, with
    the three things both applications do with one: assign a key (overwrite
    in place or append), fill it from the lines of a file, and list its
    entries sorted by key. */
module Dict {
  import opened Wrappers
  import opened Text

  /** A dict never holds a key twice. */
  predicate UniqueKeys<K(==), V(==)>(a: seq<(K, V)>) {
    forall i, j :: 0 <= i < j < |a| ==> a[i].0 != a[j].0
  }

  /** The keys of the entries. */
  function KeySet<K(==), V(==)>(a: seq<(K, V)>): set<K> {
    set i | 0 <= i < |a| :: a[i].0
  }

  /** The key-to-value view of the entries; a later entry overrides an earlier one. */
  function ToMap<K(==), V(==)>(a: seq<(K, V)>): (m: map<K, V>)
    ensures m.Keys == KeySet(a)
  {
    if |a| == 0 then map[]
    else
      var m := ToMap(a[..|a| - 1])[a[|a| - 1].0 := a[|a| - 1].1];
      assert forall i :: 0 <= i < |a| - 1 ==> a[..|a| - 1][i] == a[i];
      m
  }

  lemma ToMapAppend<K, V>(a: seq<(K, V)>, e: (K, V))
    ensures ToMap(a + [e]) == ToMap(a)[e.0 := e.1]
  {
    assert (a + [e])[..|a|] == a;
  }

  /** In a dict, an entry and a map binding are the same thing. */
  lemma {:induction false} ToMapEntries<K, V>(a: seq<(K, V)>)
    requires UniqueKeys(a)
    ensures forall i :: 0 <= i < |a| ==> ToMap(a)[a[i].0] == a[i].1
    decreases |a|
  {
    if |a| > 0 {
      var init := a[..|a| - 1];
      ToMapEntries(init);
      assert forall i :: 0 <= i < |init| ==> init[i] == a[i];
    }
  }

  lemma ToMapPairs<K, V>(a: seq<(K, V)>)
    requires UniqueKeys(a)
    ensures forall k, v :: (k, v) in a <==> k in ToMap(a) && ToMap(a)[k] == v
  {
    ToMapEntries(a);
    forall k, v | k in ToMap(a) && ToMap(a)[k] == v
      ensures (k, v) in a
    {
      var i :| 0 <= i < |a| && a[i].0 == k;
      assert a[i] == (k, v);
    }
  }

  /** `d.get(k)`: the value stored under `k`, if any. */
  function Get<K(==), V(==)>(a: seq<(K, V)>, k: K): (r: Option<V>)
    ensures r.Some? <==> k in KeySet(a)
  {
    if k in ToMap(a) then Some(ToMap(a)[k]) else None
  }

  /** Two dicts that answer every lookup alike have the same map view. */
  lemma SameLookupsSameMap<K, V>(a: seq<(K, V)>, b: seq<(K, V)>)
    requires forall k :: Get(a, k) == Get(b, k)
    ensures ToMap(a) == ToMap(b)
  {
    forall k | k in ToMap(a)
      ensures k in ToMap(b) && ToMap(b)[k] == ToMap(a)[k]
    {
      assert Get(a, k) == Get(b, k);
    }
    forall k | k in ToMap(b)
      ensures k in ToMap(a)
    {
      assert Get(a, k) == Get(b, k);
    }
  }

  /** Two dicts with the same entries have the same map view, whatever their order. */
  lemma SameEntriesSameMap<K, V>(a: seq<(K, V)>, b: seq<(K, V)>)
    requires UniqueKeys(a) && UniqueKeys(b)
    requires forall e :: e in a <==> e in b
    ensures ToMap(a) == ToMap(b)
  {
    EntriesIncluded(a, b);
    EntriesIncluded(b, a);
  }

  /** Entries of `a` that all occur in `b` make `a`'s map a part of `b`'s. */
  lemma EntriesIncluded<K, V>(a: seq<(K, V)>, b: seq<(K, V)>)
    requires UniqueKeys(a) && UniqueKeys(b)
    requires forall e :: e in a ==> e in b
    ensures forall k :: k in ToMap(a) ==> k in ToMap(b) && ToMap(b)[k] == ToMap(a)[k]
  {
    ToMapPairs(a);
    ToMapPairs(b);
    forall k | k in ToMap(a)
      ensures k in ToMap(b) && ToMap(b)[k] == ToMap(a)[k]
    {
      assert (k, ToMap(a)[k]) in a;
    }
  }

  /** Every entry whose key is `k` rewritten to `(k, v)`; positions kept. */
  function Replace<K(==), V(==)>(a: seq<(K, V)>, k: K, v: V): (r: seq<(K, V)>)
    ensures |r| == |a|
    ensures forall i :: 0 <= i < |a| ==> r[i] == if a[i].0 == k then (k, v) else a[i]
  {
    seq(|a|, i requires 0 <= i < |a| => if a[i].0 == k then (k, v) else a[i])
  }

  lemma {:induction false} ReplaceToMap<K, V>(a: seq<(K, V)>, k: K, v: V)
    ensures ToMap(Replace(a, k, v)) == if k in ToMap(a) then ToMap(a)[k := v] else ToMap(a)
    decreases |a|
  {
    if |a| > 0 {
      var init := a[..|a| - 1];
      var last := a[|a| - 1];
      var ri := Replace(init, k, v);
      var x := if last.0 == k then (k, v) else last;
      ReplaceSplit(a, k, v);
      ReplaceToMap(init, k, v);
      ToMapAppend(ri, x);
      ToMapLast(a);
      ReplaceStep(ToMap(init), ToMap(ri), k, v, last.0, last.1);
    }
  }

  lemma ToMapLast<K, V>(a: seq<(K, V)>)
    requires |a| > 0
    ensures ToMap(a) == ToMap(a[..|a| - 1])[a[|a| - 1].0 := a[|a| - 1].1]
  {
  }

  /** Replacing commutes with one more binding. */
  lemma ReplaceStep<K, V>(m: map<K, V>, rm: map<K, V>, k: K, v: V, lk: K, lv: V)
    requires rm == if k in m then m[k := v] else m
    ensures rm[lk := if lk == k then v else lv]
            == if k in m[lk := lv] then m[lk := lv][k := v] else m[lk := lv]
  {
  }

  lemma ReplaceSplit<K, V>(a: seq<(K, V)>, k: K, v: V)
    requires |a| > 0
    ensures Replace(a, k, v)
            == Replace(a[..|a| - 1], k, v) + [if a[|a| - 1].0 == k then (k, v) else a[|a| - 1]]
  {
  }

  /** `d[k] = v`: overwrites in place when `k` is present, appends otherwise. */
  function Set<K(==), V(==)>(a: seq<(K, V)>, k: K, v: V): (r: seq<(K, V)>)
    ensures ToMap(r) == ToMap(a)[k := v]
    ensures k in ToMap(a) ==> |r| == |a| && forall i :: 0 <= i < |a| ==> r[i].0 == a[i].0
    ensures k !in ToMap(a) ==> r == a + [(k, v)]
    ensures UniqueKeys(a) ==> UniqueKeys(r)
  {
    if k in ToMap(a) then
      ReplaceToMap(a, k, v);
      Replace(a, k, v)
    else
      ToMapAppend(a, (k, v));
      a + [(k, v)]
  }

  /** Store a parsed entry, or leave the dict alone when the line did not parse. */
  function Put<K(==), V(==)>(a: seq<(K, V)>, e: Option<(K, V)>): (r: seq<(K, V)>)
    ensures UniqueKeys(a) ==> UniqueKeys(r)
  {
    match e
    case None => a
    case Some(kv) => Set(a, kv.0, kv.1)
  }

  /** The loop `for x in xs: if parse(x) succeeds with (k, v): d[k] = v`, starting from `acc`. */
  function Collect<L, K(==), V(==)>(acc: seq<(K, V)>, xs: seq<L>, parse: L -> Option<(K, V)>): (r: seq<(K, V)>)
    ensures UniqueKeys(acc) ==> UniqueKeys(r)
    decreases |xs|
  {
    if |xs| == 0 then acc else Collect(Put(acc, parse(xs[0])), xs[1..], parse)
  }

  lemma CollectCons<L, K, V>(acc: seq<(K, V)>, x: L, xs: seq<L>, parse: L -> Option<(K, V)>)
    ensures Collect(acc, [x] + xs, parse) == Collect(Put(acc, parse(x)), xs, parse)
  {
    assert ([x] + xs)[1..] == xs;
  }

  lemma {:induction false} CollectAppend<L, K, V>(acc: seq<(K, V)>, xs: seq<L>, ys: seq<L>, parse: L -> Option<(K, V)>)
    ensures Collect(acc, xs + ys, parse) == Collect(Collect(acc, xs, parse), ys, parse)
    decreases |xs|
  {
    if |xs| == 0 {
      assert xs + ys == ys;
    } else {
      assert (xs + ys)[0] == xs[0];
      assert (xs + ys)[1..] == xs[1..] + ys;
      CollectAppend(Put(acc, parse(xs[0])), xs[1..], ys, parse);
    }
  }

  /** A line that does not parse changes nothing, and the lines after it are still read. */
  lemma CollectSkips<L, K, V>(acc: seq<(K, V)>, xs: seq<L>, x: L, ys: seq<L>, parse: L -> Option<(K, V)>)
    requires parse(x).None?
    ensures Collect(acc, xs + [x] + ys, parse) == Collect(acc, xs + ys, parse)
  {
    CollectAppend(acc, xs + [x], ys, parse);
    CollectAppend(acc, xs, [x], parse);
    CollectAppend(acc, xs, ys, parse);
  }

  /** Two readers that agree on every line collect the same dict. */
  lemma {:induction false} CollectSameReader<L, K, V>(acc: seq<(K, V)>, xs: seq<L>, f: L -> Option<(K, V)>, g: L -> Option<(K, V)>)
    requires forall i :: 0 <= i < |xs| ==> f(xs[i]) == g(xs[i])
    ensures Collect(acc, xs, f) == Collect(acc, xs, g)
    decreases |xs|
  {
    if |xs| > 0 {
      CollectSameReader(Put(acc, f(xs[0])), xs[1..], f, g);
    }
  }

  /** A key keeps the value of the last line that parsed to it. */
  lemma {:induction false} CollectKeepsUntouched<L, K, V>(acc: seq<(K, V)>, ys: seq<L>, k: K, parse: L -> Option<(K, V)>)
    requires k in ToMap(acc)
    requires forall j :: 0 <= j < |ys| ==> parse(ys[j]).None? || parse(ys[j]).value.0 != k
    ensures k in ToMap(Collect(acc, ys, parse))
    ensures ToMap(Collect(acc, ys, parse))[k] == ToMap(acc)[k]
    decreases |ys|
  {
    if |ys| > 0 {
      assert parse(ys[0]).None? || parse(ys[0]).value.0 != k;
      CollectKeepsUntouched(Put(acc, parse(ys[0])), ys[1..], k, parse);
    }
  }

  lemma CollectLastWins<L, K, V>(acc: seq<(K, V)>, xs: seq<L>, x: L, ys: seq<L>, parse: L -> Option<(K, V)>, k: K, v: V)
    requires parse(x) == Some((k, v))
    requires forall j :: 0 <= j < |ys| ==> parse(ys[j]).None? || parse(ys[j]).value.0 != k
    ensures k in ToMap(Collect(acc, xs + [x] + ys, parse))
    ensures ToMap(Collect(acc, xs + [x] + ys, parse))[k] == v
  {
    CollectAppend(acc, xs + [x], ys, parse);
    CollectAppend(acc, xs, [x], parse);
    var mid := Collect(acc, xs + [x], parse);
    CollectKeepsUntouched(mid, ys, k, parse);
  }

  /** Every binding of the result was already in `acc` or was parsed from some line. */
  lemma {:induction false} CollectSound<L, K, V>(acc: seq<(K, V)>, xs: seq<L>, parse: L -> Option<(K, V)>)
    ensures forall k :: k in ToMap(Collect(acc, xs, parse)) ==>
      || (k in ToMap(acc) && ToMap(Collect(acc, xs, parse))[k] == ToMap(acc)[k])
      || (exists i :: 0 <= i < |xs| && parse(xs[i]) == Some((k, ToMap(Collect(acc, xs, parse))[k])))
    decreases |xs|
  {
    if |xs| > 0 {
      var acc' := Put(acc, parse(xs[0]));
      CollectSound(acc', xs[1..], parse);
      var r := Collect(acc, xs, parse);
      forall k | k in ToMap(r)
        ensures || (k in ToMap(acc) && ToMap(r)[k] == ToMap(acc)[k])
                || (exists i :: 0 <= i < |xs| && parse(xs[i]) == Some((k, ToMap(r)[k])))
      {
        if k in ToMap(acc') && ToMap(r)[k] == ToMap(acc')[k] {
          if parse(xs[0]).Some? && parse(xs[0]).value.0 == k {
            assert parse(xs[0]) == Some((k, ToMap(r)[k]));
          }
        } else {
          var i :| 0 <= i < |xs[1..]| && parse(xs[1..][i]) == Some((k, ToMap(r)[k]));
          assert parse(xs[i + 1]) == Some((k, ToMap(r)[k]));
        }
      }
    }
  }

  // ---------------------------------------------------------------- sorted(d.items())

  /** Entries in strictly increasing key order. */
  predicate SortedByKey<V>(a: seq<(string, V)>) {
    forall i, j :: 0 <= i < j < |a| ==> StrLess(a[i].0, a[j].0)
  }

  function InsertByKey<V>(e: (string, V), a: seq<(string, V)>): (r: seq<(string, V)>)
    ensures multiset(r) == multiset(a) + multiset{e}
  {
    if |a| == 0 || StrLess(e.0, a[0].0) then [e] + a
    else
      assert a == [a[0]] + a[1..];
      [a[0]] + InsertByKey(e, a[1..])
  }

  /** `sorted(d.items())` for a dict with text keys: insertion sort on the key. */
  function SortByKey<V>(a: seq<(string, V)>): (r: seq<(string, V)>)
    ensures multiset(r) == multiset(a)
  {
    if |a| == 0 then []
    else
      assert a == [a[0]] + a[1..];
      InsertByKey(a[0], SortByKey(a[1..]))
  }

  lemma {:induction false} InsertByKeySorted<V>(e: (string, V), a: seq<(string, V)>)
    requires SortedByKey(a)
    requires forall i :: 0 <= i < |a| ==> a[i].0 != e.0
    ensures SortedByKey(InsertByKey(e, a))
    decreases |a|
  {
    var r := InsertByKey(e, a);
    if |a| == 0 {
    } else if StrLess(e.0, a[0].0) {
      forall j | 1 <= j < |a|
        ensures StrLess(e.0, a[j].0)
      {
        StrLessTransitive(e.0, a[0].0, a[j].0);
      }
    } else {
      StrLessTotal(e.0, a[0].0);
      InsertByKeySorted(e, a[1..]);
      var t := InsertByKey(e, a[1..]);
      forall j | 0 <= j < |t|
        ensures StrLess(a[0].0, t[j].0)
      {
        assert t[j] in multiset(t);
        if t[j] != e {
          assert t[j] in multiset(a[1..]);
          var m :| 0 <= m < |a[1..]| && a[1..][m] == t[j];
          assert a[m + 1] == t[j];
        }
      }
    }
  }

  /** Sorting keeps exactly the entries it was given. */
  lemma SortByKeyEntries<V>(a: seq<(string, V)>)
    ensures forall e :: e in SortByKey(a) <==> e in a
  {
    var r := SortByKey(a);
    forall e ensures e in r <==> e in a {
      assert e in r <==> e in multiset(r);
      assert e in a <==> e in multiset(a);
    }
  }

  lemma {:induction false} SortByKeyOrdered<V>(a: seq<(string, V)>)
    requires UniqueKeys(a)
    ensures SortedByKey(SortByKey(a))
    decreases |a|
  {
    if |a| > 0 {
      var rest := SortByKey(a[1..]);
      SortByKeyOrdered(a[1..]);
      var tail := a[1..];
      forall i | 0 <= i < |rest|
        ensures rest[i].0 != a[0].0
      {
        assert rest[i] in multiset(rest);
        assert rest[i] in multiset(tail);
        assert rest[i] in tail;
        var m :| 0 <= m < |a[1..]| && a[1..][m] == rest[i];
        assert a[m + 1] == rest[i];
      }
      InsertByKeySorted(a[0], rest);
    }
  }

  /** `sorted(d.items())` lists the same entries in strictly increasing key order. */
  lemma SortByKeySorted<V>(a: seq<(string, V)>)
    requires UniqueKeys(a)
    ensures SortedByKey(SortByKey(a))
    ensures UniqueKeys(SortByKey(a))
    ensures forall e :: e in SortByKey(a) <==> e in a
    ensures ToMap(SortByKey(a)) == ToMap(a)
  {
    var r := SortByKey(a);
    SortByKeyEntries(a);
    SortByKeyOrdered(a);
    forall i, j | 0 <= i < j < |r|
      ensures r[i].0 != r[j].0
    {
      if r[i].0 == r[j].0 {
        StrLessIrreflexive(r[i].0);
      }
    }
    SameEntriesSameMap(r, a);
  }
}

=== FILE: inventory.dfy ===
/** The trader's inventory file: one tab-separated line per satchel slot
    (slot, item name, item id, ...).  The monitor keeps, per slot of a trader
    satchel, the item in it; empty slots and other lines are dropped. */
module Inventory {
  import opened Wrappers
  import opened Text
  import opened Dict

  /** What a slot holds: the item's name and its id, as written in the file. */
  datatype Item = Item(name: string, id: string)

  /** Slot to item, in the order the slots were first seen. */
  type Snapshot = seq<(string, Item)>

  /** The number of consecutive ASCII digits in `s` from position `i`. */
  function DigitRun(s: string, i: nat): (n: nat)
    requires i <= |s|
    ensures i + n <= |s|
    ensures forall k :: i <= k < i + n ==> IsDigit(s[k])
    ensures i + n < |s| ==> !IsDigit(s[i + n])
    decreases |s| - i
  {
    if i < |s| && IsDigit(s[i]) then 1 + DigitRun(s, i + 1) else 0
  }

  /** `re.match(r'General\d+-Slot\d+', slot)`, computed the way the matcher
      runs: `General`, the run of digits after it, `-Slot`, then a digit. */
  predicate IsSlotName(s: string) {
    && |s| >= 7 && s[..7] == "General"
    && var d := DigitRun(s, 7);
    && d > 0
    && 7 + d + 6 <= |s|
    && s[7 + d..7 + d + 5] == "-Slot"
    && IsDigit(s[7 + d + 5])
  }

  /** The pattern read declaratively: `s` starts with `General`, `a` digits,
      `-Slot` and `b` digits, for some `a, b >= 1`. */
  predicate SlotPattern(s: string, a: int, b: int) {
    && a >= 1 && b >= 1
    && 7 + a + 5 + b <= |s|
    && s[..7] == "General"
    && (forall k :: 7 <= k < 7 + a ==> IsDigit(s[k]))
    && s[7 + a..7 + a + 5] == "-Slot"
    && (forall k :: 7 + a + 5 <= k < 7 + a + 5 + b ==> IsDigit(s[k]))
  }

  /** The matcher accepts exactly the slot names the pattern describes. */
  lemma IsSlotNameIff(s: string)
    ensures IsSlotName(s) <==> exists a, b :: SlotPattern(s, a, b)
  {
    if IsSlotName(s) {
      assert SlotPattern(s, DigitRun(s, 7), 1);
    }
    if exists a, b :: SlotPattern(s, a, b) {
      var a, b :| SlotPattern(s, a, b);
      var d := DigitRun(s, 7);
      assert s[7 + a] == '-';
      assert d == a;
    }
  }

  /** One line: stripped, it must hold a tab and split into at least three
      tab-separated fields; the first must be a satchel slot and the second
      must not be `Empty`. */
  function ParseInventoryLine(raw: string): (r: Option<(string, Item)>)
    ensures r.Some? ==> IsSlotName(r.value.0) && r.value.1.name != "Empty"
    ensures r.Some? ==> '\t' in Strip(raw)
  {
    var line := Strip(raw);
    if |line| > 0 && '\t' in line then
      var parts := Split(line, '\t');
      if |parts| >= 3 && IsSlotName(parts[0]) && parts[1] != "Empty" then
        Some((parts[0], Item(parts[1], parts[2])))
      else None
    else None
  }

  /** Every entry is a satchel slot holding a named item. */
  predicate ValidSnapshot(r: Snapshot) {
    forall i :: 0 <= i < |r| ==> IsSlotName(r[i].0) && r[i].1.name != "Empty"
  }

  /** `load_inventory_file` on the file's text, or on no file: a missing file
      is an empty snapshot.  Later lines for a slot overwrite earlier ones. */
  function LoadInventory(file: Option<string>): (r: Snapshot)
    ensures UniqueKeys(r)
    ensures ValidSnapshot(r)
  {
    match file
    case None => []
    case Some(text) =>
      var lines := Split(text, '\n');
      ReadLines(lines)
  }

  /** The snapshot read from a file's lines, one line after the other. */
  function ReadLines(lines: seq<string>): (r: Snapshot)
    ensures UniqueKeys(r)
    ensures ValidSnapshot(r)
  {
    SnapshotEntriesValid(lines);
    Collect([], lines, ParseInventoryLine)
  }

  lemma SnapshotEntriesValid(lines: seq<string>)
    ensures ValidSnapshot(Collect([], lines, ParseInventoryLine))
  {
    var r := Collect([], lines, ParseInventoryLine);
    CollectSound([], lines, ParseInventoryLine);
    ToMapEntries(r);
    forall i | 0 <= i < |r|
      ensures IsSlotName(r[i].0) && r[i].1.name != "Empty"
    {
      var slot := r[i].0;
      assert slot in ToMap(r);
      var j :| 0 <= j < |lines| && ParseInventoryLine(lines[j]) == Some((slot, ToMap(r)[slot]));
      assert ToMap(r)[slot] == r[i].1;
    }
  }

  /** The lines of a file's text. */
  function Lines(text: string): seq<string> {
    Split(text, '\n')
  }

  /** Every entry of a snapshot was read from one of the file's lines. */
  lemma LoadInventorySound(text: string, slot: string, item: Item)
    requires (slot, item) in LoadInventory(Some(text))
    ensures exists j :: 0 <= j < |Lines(text)| && ParseInventoryLine(Lines(text)[j]) == Some((slot, item))
  {
    var lines := Lines(text);
    var r := LoadInventory(Some(text));
    CollectSound([], lines, ParseInventoryLine);
    ToMapPairs(r);
  }

  /** A line without a tab, or with fewer than three fields once stripped,
      contributes nothing, and the lines after it are still read. */
  lemma MalformedInventoryLineSkipped(xs: seq<string>, bad: string, ys: seq<string>)
    requires '\t' !in Strip(bad) || |Split(Strip(bad), '\t')| < 3
    ensures Collect([], xs + [bad] + ys, ParseInventoryLine) == Collect([], xs + ys, ParseInventoryLine)
  {
    CollectSkips([], xs, bad, ys, ParseInventoryLine);
  }

  /** A line for a slot that no later line mentions decides that slot. */
  lemma LaterSlotLineWins(xs: seq<string>, line: string, ys: seq<string>, slot: string, item: Item)
    requires ParseInventoryLine(line) == Some((slot, item))
    requires forall j :: 0 <= j < |ys| ==> ParseInventoryLine(ys[j]).None? || ParseInventoryLine(ys[j]).value.0 != slot
    ensures Get(Collect([], xs + [line] + ys, ParseInventoryLine), slot) == Some(item)
  {
    CollectLastWins([], xs, line, ys, ParseInventoryLine, slot, item);
  }

  /** A well-formed line for a satchel slot is read as that slot and item,
      whatever further tab-separated fields follow the id. */
  lemma SlotLineRead(slot: string, name: string, id: string, rest: string)
    requires IsSlotName(slot) && name != "Empty"
    requires '\t' !in slot && '\t' !in name && '\t' !in id
    requires rest == [] || rest[0] == '\t'
    requires IsStripped(slot + "\t" + name + "\t" + id + rest)
    ensures ParseInventoryLine(slot + "\t" + name + "\t" + id + rest) == Some((slot, Item(name, id)))
  {
    var line := slot + "\t" + name + "\t" + id + rest;
    LineFields(slot, name, id, rest);
    ReadFields(line, slot, name, id);
  }

  /** The first three fields of such a line. */
  lemma LineFields(slot: string, name: string, id: string, rest: string)
    requires '\t' !in slot && '\t' !in name && '\t' !in id
    requires rest == [] || rest[0] == '\t'
    ensures var line := slot + "\t" + name + "\t" + id + rest;
            var parts := Split(line, '\t');
            && line[|slot|] == '\t'
            && |parts| >= 3 && parts[0] == slot && parts[1] == name && parts[2] == id
  {
    var line := slot + "\t" + name + "\t" + id + rest;
    var fields := IdFields(id, rest);
    assert line == slot + ['\t'] + (name + ['\t'] + (id + rest));
    SplitCons(name, '\t', id + rest);
    SplitCons(slot, '\t', name + ['\t'] + (id + rest));
  }

  /** A stripped line whose fields are a satchel slot, a name other than
      `Empty` and an id is read as that slot and item. */
  lemma ReadFields(line: string, slot: string, name: string, id: string)
    requires IsStripped(line) && |line| > 0 && '\t' in line
    requires var parts := Split(line, '\t');
             |parts| >= 3 && parts[0] == slot && parts[1] == name && parts[2] == id
    requires IsSlotName(slot) && name != "Empty"
    ensures ParseInventoryLine(line) == Some((slot, Item(name, id)))
  {
    StripOfStripped(line);
  }

  /** The fields from the id on: the id first, then whatever follows. */
  lemma IdFields(id: string, rest: string) returns (fields: seq<string>)
    requires '\t' !in id
    requires rest == [] || rest[0] == '\t'
    ensures Split(id + rest, '\t') == fields && |fields| >= 1 && fields[0] == id
  {
    if rest == [] {
      assert id + rest == id;
      FirstIndexAbsent(id, '\t');
      fields := [id];
    } else {
      assert id + rest == id + ['\t'] + rest[1..];
      SplitCons(id, '\t', rest[1..]);
      fields := [id] + Split(rest[1..], '\t');
    }
  }
}

=== FILE: listing.dfy ===
/** The trader listing file ("BZR" file): a text whose `[ItemToSell]`
    section holds one `name=price` line per item, price in copper.  The
    synchroniser reads it with the header spelled exactly and rewrites the
    section; the sales monitor reads it with the header matched ignoring
    case.  Both read the body lines the same way, except that the monitor
    strips the price text before `int()` and the synchroniser does not. */
module Listing {
  import opened Wrappers
  import opened Text
  import opened Dict

  /** The items of one listing, name to copper price, in dict order. */
  type Items = seq<(string, int)>

  /** How the section header is recognised: `Exact` is the synchroniser's
      `\[ItemToSell\]`; `IgnoreCase` is the monitor's `\[Itemtosell\]` under
      `re.IGNORECASE`, which accepts the same spellings of either pattern. */
  datatype Dialect = Exact | IgnoreCase

  const Header: string := "[ItemToSell]"

  /** Python's simple lower-case mapping, for the characters that can lower-case
      to a letter of the header: ASCII capitals, and U+0130 (capital I with dot). */
  function Lower(c: char): char {
    if 'A' <= c <= 'Z' then ((c as int) + 32) as char
    else if c == '\U{130}' then 'i'
    else c
  }

  /** Case-insensitive test of text character `c` against header character `p`:
      equal after lower-casing, plus the two extra equivalences the regular
      expression engine adds for these letters (dotless i U+0131 for `i`,
      long s U+017F for `s`). */
  predicate FoldMatches(c: char, p: char) {
    var lp := Lower(p);
    || Lower(c) == lp
    || (lp == 'i' && c == '\U{131}')
    || (lp == 's' && c == '\U{17F}')
  }

  predicate HeaderCharMatches(d: Dialect, c: char, p: char) {
    match d
    case Exact => c == p
    case IgnoreCase => FoldMatches(c, p)
  }

  /** The section header occurs at position `i` of `text`. */
  predicate HeaderAt(d: Dialect, text: string, i: int) {
    && 0 <= i
    && i + |Header| <= |text|
    && forall m :: 0 <= m < |Header| ==> HeaderCharMatches(d, text[i + m], Header[m])
  }

  /** `re.search` for the header: its first occurrence at or after `from`. */
  function FindHeaderFrom(d: Dialect, text: string, from: nat): (r: Option<nat>)
    ensures r.Some? ==> from <= r.value && HeaderAt(d, text, r.value)
    ensures r.Some? ==> forall j :: from <= j < r.value ==> !HeaderAt(d, text, j)
    ensures r.None? ==> forall j :: from <= j ==> !HeaderAt(d, text, j)
    decreases |text| - from
  {
    if from + |Header| > |text| then None
    else if HeaderAt(d, text, from) then Some(from)
    else FindHeaderFrom(d, text, from + 1)
  }

  function FindHeader(d: Dialect, text: string): Option<nat> {
    FindHeaderFrom(d, text, 0)
  }

  lemma FindHeaderIsFirst(d: Dialect, text: string, p: nat)
    requires HeaderAt(d, text, p)
    requires forall j :: 0 <= j < p ==> !HeaderAt(d, text, j)
    ensures FindHeader(d, text) == Some(p)
  {
  }

  /** Where the lazy `(.*?)` followed by `(?=\[|$)` may stop: before a `[`, at
      the end of the text, or before a newline that ends the text (Python's `$`
      without MULTILINE matches there too). */
  predicate IsSectionBoundary(text: string, p: int) {
    || p == |text|
    || (0 <= p < |text| && text[p] == '[')
    || (p == |text| - 1 && 0 <= p && text[p] == '\n')
  }

  /** The end of the section body that starts at `from`: the first boundary. */
  function SectionEnd(text: string, from: nat): (r: nat)
    requires from <= |text|
    ensures from <= r <= |text|
    ensures IsSectionBoundary(text, r)
    ensures forall p :: from <= p < r ==> !IsSectionBoundary(text, p)
    decreases |text| - from
  {
    if IsSectionBoundary(text, from) then from else SectionEnd(text, from + 1)
  }

  /** The position of the header and the end of the section it opens. */
  function Locate(d: Dialect, text: string): (r: Option<(nat, nat)>)
    ensures r.Some? ==> HeaderAt(d, text, r.value.0)
    ensures r.Some? ==> r.value.0 + |Header| <= r.value.1 <= |text|
  {
    match FindHeader(d, text)
    case None => None
    case Some(i) => Some((i, SectionEnd(text, i + |Header|)))
  }

  // ---------------------------------------------------------------- reading

  /** A name the rewritten section can carry and read back unchanged. */
  predicate CleanName(n: string) {
    '=' !in n && '[' !in n && '\n' !in n && IsStripped(n)
  }

  /** How each reader turns the text after `=` into a price: the synchroniser
      calls `int(price_str)` on it as it is, the monitor `int(price.strip())`.
      The two differ only when an information separator is stripped. */
  function ReadPrice(d: Dialect, s: string): Option<int> {
    match d
    case Exact => ParseInt(s)
    case IgnoreCase => ParseInt(Strip(s))
  }

  /** One body line: it is stripped, and counts only when it holds `=` and does
      not start with `[`; the stripped text before the first `=` is the name,
      and the rest must satisfy the reader's `int()` call, otherwise the line
      is skipped. */
  function ParseItemLine(d: Dialect, raw: string): (r: Option<(string, int)>)
    ensures r.Some? ==> '=' !in r.value.0 && IsStripped(r.value.0)
    ensures r.Some? ==> forall c :: c in r.value.0 ==> c in raw
    ensures r.Some? ==> '=' in Strip(raw) && Strip(raw)[0] != '['
    ensures r.Some? ==> r.value.0 == Strip(Strip(raw)[..FirstIndex(Strip(raw), '=')])
    ensures r.Some? ==> ReadPrice(d, Strip(raw)[FirstIndex(Strip(raw), '=') + 1..]) == Some(r.value.1)
  {
    ParseStrippedShape(d, Strip(raw));
    ParseStripped(d, Strip(raw))
  }

  /** A body line once stripped. */
  function ParseStripped(d: Dialect, line: string): (r: Option<(string, int)>)
    ensures r.Some? ==> '=' !in r.value.0 && IsStripped(r.value.0)
    ensures r.Some? ==> forall c :: c in r.value.0 ==> c in line
  {
    if '=' in line && !(|line| > 0 && line[0] == '[') then
      var i := FirstIndex(line, '=');
      Entry(line[..i], ReadPrice(d, line[i + 1..]))
    else None
  }

  /** What a stripped line read gives: the name before the first `=`, and the
      price the reader makes of the text after it. */
  lemma ParseStrippedShape(d: Dialect, line: string)
    ensures var r := ParseStripped(d, line);
            r.Some? ==>
              && '=' in line && line[0] != '['
              && r.value.0 == Strip(line[..FirstIndex(line, '=')])
              && ReadPrice(d, line[FirstIndex(line, '=') + 1..]) == Some(r.value.1)
  {
    var r := ParseStripped(d, line);
    if '=' in line && !(|line| > 0 && line[0] == '[') {
      var i := FirstIndex(line, '=');
      var p := ReadPrice(d, line[i + 1..]);
      assert r == Entry(line[..i], p);
    } else {
      assert r == None;
    }
  }

  /** The entry of a line split at its first `=`, once the price is read. */
  function Entry(before: string, price: Option<int>): (r: Option<(string, int)>)
    ensures r.Some? <==> price.Some?
    ensures r.Some? ==> r.value.1 == price.value
    ensures r.Some? ==> IsStripped(r.value.0)
    ensures r.Some? ==> forall c :: c in r.value.0 ==> c in before
  {
    match price
    case None => None
    case Some(p) => Some((Strip(before), p))
  }

  function SyncLine(raw: string): Option<(string, int)> {
    ParseItemLine(Exact, raw)
  }

  function MonitorLine(raw: string): Option<(string, int)> {
    ParseItemLine(IgnoreCase, raw)
  }

  /** The line reader of a dialect, as a function value for `Collect`. */
  function LineReader(d: Dialect): string -> Option<(string, int)> {
    match d
    case Exact => SyncLine
    case IgnoreCase => MonitorLine
  }

  lemma ReaderReads(d: Dialect, raw: string)
    ensures LineReader(d)(raw) == ParseItemLine(d, raw)
  {
  }

  /** The body lines read in order, later duplicates overwriting earlier ones. */
  function ParseLines(d: Dialect, lines: seq<string>): (r: Items)
    ensures UniqueKeys(r)
  {
    Collect([], lines, LineReader(d))
  }

  /** `section.strip().split('\n')`, then each line read. */
  function ParseSection(d: Dialect, section: string): (r: Items)
    ensures UniqueKeys(r)
  {
    ParseLines(d, Split(Strip(section), '\n'))
  }

  /** `parse_bzr_file` (`Exact`) and `load_bzr_file` (`IgnoreCase`) on the text
      of a file: a text without the header gives no items and no error. */
  function Decode(d: Dialect, text: string): (r: Items)
    ensures UniqueKeys(r)
    ensures (forall j :: 0 <= j ==> !HeaderAt(d, text, j)) ==> r == []
  {
    match Locate(d, text)
    case None => []
    case Some(span) => ParseSection(d, text[span.0 + |Header|..span.1])
  }

  /** A line without `=`, or starting with `[`, or whose value is not an
      integer, is skipped, and every later line is still read. */
  lemma MalformedLineSkipped(d: Dialect, xs: seq<string>, bad: string, ys: seq<string>)
    requires
      var line := Strip(bad);
      || '=' !in line
      || line[0] == '['
      || ReadPrice(d, line[FirstIndex(line, '=') + 1..]).None?
    ensures ParseLines(d, xs + [bad] + ys) == ParseLines(d, xs + ys)
  {
    BadLineUnread(d, bad);
    ReaderReads(d, bad);
    CollectSkips([], xs, bad, ys, LineReader(d));
  }

  lemma BadLineUnread(d: Dialect, bad: string)
    requires
      var line := Strip(bad);
      || '=' !in line
      || line[0] == '['
      || ReadPrice(d, line[FirstIndex(line, '=') + 1..]).None?
    ensures ParseItemLine(d, bad) == None
  {
    StrippedBadLine(d, Strip(bad));
  }

  lemma StrippedBadLine(d: Dialect, line: string)
    requires '=' !in line || line[0] == '[' || ReadPrice(d, line[FirstIndex(line, '=') + 1..]).None?
    ensures ParseStripped(d, line) == None
  {
  }

  /** Of two lines for the same name, the later one sets the price. */
  lemma LastLineWins(d: Dialect, xs: seq<string>, line: string, ys: seq<string>, name: string, price: int)
    requires ParseItemLine(d, line) == Some((name, price))
    requires forall j :: 0 <= j < |ys| ==> ParseItemLine(d, ys[j]).None? || ParseItemLine(d, ys[j]).value.0 != name
    ensures name in ToMap(ParseLines(d, xs + [line] + ys))
    ensures ToMap(ParseLines(d, xs + [line] + ys))[name] == price
  {
    ReaderReads(d, line);
    forall j | 0 <= j < |ys|
      ensures LineReader(d)(ys[j]).None? || LineReader(d)(ys[j]).value.0 != name
    {
      ReaderReads(d, ys[j]);
    }
    CollectLastWins([], xs, line, ys, LineReader(d), name, price);
  }

  lemma {:induction false} JoinChars(parts: seq<string>, sep: char, i: nat, c: char)
    requires i < |parts| && c in parts[i]
    ensures c in Join(parts, sep)
    decreases |parts|
  {
    if i > 0 {
      JoinChars(parts[1..], sep, i - 1, c);
    }
  }

  lemma LineNameClean(d: Dialect, line: string)
    requires '[' !in line && '\n' !in line
    requires ParseItemLine(d, line).Some?
    ensures CleanName(ParseItemLine(d, line).value.0)
  {
  }

  lemma {:induction false} SplitChars(s: string, sep: char, i: nat)
    requires i < |Split(s, sep)|
    ensures forall c :: c in Split(s, sep)[i] ==> c in s
  {
    forall c | c in Split(s, sep)[i]
      ensures c in s
    {
      JoinChars(Split(s, sep), sep, i, c);
    }
  }

  /** A name read from a bracket-free line list comes from one of its lines. */
  lemma ParsedNameClean(d: Dialect, lines: seq<string>, e: (string, int))
    requires forall i :: 0 <= i < |lines| ==> '[' !in lines[i] && '\n' !in lines[i]
    requires e in ParseLines(d, lines)
    ensures CleanName(e.0)
  {
    var r := ParseLines(d, lines);
    CollectSound([], lines, LineReader(d));
    ToMapPairs(r);
    assert e.0 in ToMap(r);
    var i :| 0 <= i < |lines| && LineReader(d)(lines[i]) == Some((e.0, ToMap(r)[e.0]));
    ReaderReads(d, lines[i]);
    LineNameClean(d, lines[i]);
  }

  /** Every name read from a section is one the rewrite can carry. */
  lemma ParseSectionNamesClean(d: Dialect, section: string)
    requires '[' !in section
    ensures forall e :: e in ParseSection(d, section) ==> CleanName(e.0)
  {
    var stripped := Strip(section);
    var lines := Split(stripped, '\n');
    forall i | 0 <= i < |lines|
      ensures '[' !in lines[i] && '\n' !in lines[i]
    {
      SplitChars(stripped, '\n', i);
    }
    forall e | e in ParseSection(d, section)
      ensures CleanName(e.0)
    {
      ParsedNameClean(d, lines, e);
    }
  }

  /** A line without information separators reads the same in both dialects. */
  lemma LineReadsAlike(raw: string)
    requires NoInfoSeparator(raw)
    ensures ParseItemLine(IgnoreCase, raw) == ParseItemLine(Exact, raw)
  {
    var line := Strip(raw);
    forall m | 0 <= m < |line|
      ensures !IsInfoSeparator(line[m])
    {
      assert line[m] in line;
    }
    StrippedLineReadsAlike(line);
  }

  lemma StrippedLineReadsAlike(line: string)
    requires NoInfoSeparator(line)
    ensures ParseStripped(IgnoreCase, line) == ParseStripped(Exact, line)
  {
    var r1 := ParseStripped(IgnoreCase, line);
    var r2 := ParseStripped(Exact, line);
    if '=' in line && !(|line| > 0 && line[0] == '[') {
      var i := FirstIndex(line, '=');
      var p1 := ReadPrice(IgnoreCase, line[i + 1..]);
      var p2 := ReadPrice(Exact, line[i + 1..]);
      assert r1 == Entry(line[..i], p1);
      assert r2 == Entry(line[..i], p2);
      NoInfoSeparatorSlice(line, i + 1);
      PriceReadsAlike(line[i + 1..]);
    }
  }

  lemma PriceReadsAlike(price: string)
    requires NoInfoSeparator(price)
    ensures ReadPrice(IgnoreCase, price) == ReadPrice(Exact, price)
  {
    StrippedParseInt(price);
  }

  /** A section without information separators reads the same in both dialects. */
  lemma SectionReadsAlike(section: string)
    requires NoInfoSeparator(section)
    ensures ParseSection(IgnoreCase, section) == ParseSection(Exact, section)
  {
    var stripped := Strip(section);
    var lines := Split(stripped, '\n');
    forall i | 0 <= i < |lines|
      ensures LineReader(IgnoreCase)(lines[i]) == LineReader(Exact)(lines[i])
    {
      SplitChars(stripped, '\n', i);
      forall k | 0 <= k < |lines[i]|
        ensures !IsInfoSeparator(lines[i][k])
      {
        assert lines[i][k] in lines[i];
      }
      LineReadsAlike(lines[i]);
    }
    CollectSameReader([], lines, LineReader(IgnoreCase), LineReader(Exact));
  }

  /** `name=\x1c<price>`: the monitor strips the price text before `int()` and
      reads the price; the synchroniser hands it to `int()` as it is and skips
      the line. */
  lemma SeparatorPriceReadOnlyByMonitor(name: string, n: int)
    requires CleanName(name) && |name| > 0
    ensures var line := name + "=" + (['\U{1C}'] + IntToString(n));
            && ParseItemLine(IgnoreCase, line) == Some((name, n))
            && ParseItemLine(Exact, line) == None
  {
    var price := ['\U{1C}'] + IntToString(n);
    var line := name + "=" + price;
    assert line[0] == name[0] && line[|line| - 1] == price[|price| - 1];
    assert IntToString(n)[|IntToString(n)| - 1] == price[|price| - 1];
    StripOfStripped(line);
    ItemLineSplit(name, price);
    ParseStrippedAt(IgnoreCase, line, |name|);
    ParseStrippedAt(Exact, line, |name|);
    SeparatedPriceRead(n);
    StripOfStripped(name);
  }

  lemma SeparatedPriceRead(n: int)
    ensures ReadPrice(Exact, ['\U{1C}'] + IntToString(n)) == None
    ensures ReadPrice(IgnoreCase, ['\U{1C}'] + IntToString(n)) == Some(n)
  {
    var price := ['\U{1C}'] + IntToString(n);
    assert IsInfoSeparator(price[0]);
    StripDropsLeadingSpace('\U{1C}', IntToString(n));
    WrittenIntStripped(n);
    ParseIntToString(n);
  }

  /** Names read by either dialect never hold `=`, `[` or a newline and are stripped. */
  lemma DecodeNamesClean(d: Dialect, text: string)
    ensures forall e :: e in Decode(d, text) ==> CleanName(e.0)
  {
    match Locate(d, text)
    case None =>
    case Some(span) =>
      var section := text[span.0 + |Header|..span.1];
      forall k | 0 <= k < |section|
        ensures section[k] != '['
      {
        assert !IsSectionBoundary(text, span.0 + |Header| + k);
      }
      ParseSectionNamesClean(d, section);
  }

  // ---------------------------------------------------------------- writing

  /** `f'{name}={price}'`. */
  function ItemLine(e: (string, int)): string {
    e.0 + "=" + IntToString(e.1)
  }

  /** One `name=price` line plus newline per entry, in the given order. */
  function Render(items: Items): string {
    if |items| == 0 then "" else ItemLine(items[0]) + "\n" + Render(items[1..])
  }

  /** `write_bzr_file` on the text of the file.  With the header present, the
      span from the header to the section end is replaced by the header and the
      items sorted by name; the text before and after it is kept.  Without it,
      a newline is added unless the text already ends in one, then the header and
      the items in dict order.  (The source's extra newline before a following
      section is never added: the regenerated section always ends in one.) */
  function WriteListing(text: string, items: Items): (r: string)
    ensures Locate(Exact, text).Some? ==>
      var span := Locate(Exact, text).value;
      && |r| >= span.0 + |text| - span.1
      && r[..span.0] == text[..span.0]
      && r[|r| - (|text| - span.1)..] == text[span.1..]
    ensures Locate(Exact, text).None? ==> |r| > |text| && r[..|text|] == text
  {
    match Locate(Exact, text)
    case None =>
      var base := if |text| > 0 && text[|text| - 1] == '\n' then text else text + "\n";
      base + Header + "\n" + Render(items)
    case Some(span) =>
      text[..span.0] + Header + "\n" + Render(SortByKey(items)) + text[span.1..]
  }

  // ---------------------------------------------------------------- round trip

  predicate CleanItems(items: Items) {
    forall i :: 0 <= i < |items| ==> CleanName(items[i].0)
  }

  function ItemLines(items: Items): seq<string> {
    if |items| == 0 then [] else [ItemLine(items[0])] + ItemLines(items[1..])
  }

  lemma {:induction false} RenderIsJoin(items: Items)
    requires |items| > 0
    ensures Render(items) == Join(ItemLines(items), '\n') + "\n"
    ensures |ItemLines(items)| == |items|
    decreases |items|
  {
    if |items| > 1 {
      RenderIsJoin(items[1..]);
      assert ItemLines(items)[1..] == ItemLines(items[1..]);
    }
  }

  lemma {:induction false} ItemLinesShape(items: Items)
    ensures |ItemLines(items)| == |items|
    ensures forall i :: 0 <= i < |items| ==> ItemLines(items)[i] == ItemLine(items[i])
    decreases |items|
  {
    if |items| > 0 {
      var rest := items[1..];
      ItemLinesShape(rest);
      assert ItemLines(items) == [ItemLine(items[0])] + ItemLines(rest);
      assert forall i :: 1 <= i < |items| ==> items[i] == rest[i - 1];
    }
  }

  lemma ItemLineChars(e: (string, int))
    requires CleanName(e.0)
    ensures '\n' !in ItemLine(e) && '[' !in ItemLine(e)
    ensures IsStripped(ItemLine(e)) && |ItemLine(e)| > 0
  {
    var s := ItemLine(e);
    var digits := IntToString(e.1);
    assert forall k :: |e.0| + 1 <= k < |s| ==> s[k] == digits[k - |e.0| - 1];
    if |e.0| > 0 {
      assert s[0] == e.0[0];
    }
  }

  /** A written line reads back as the entry it was written from. */
  lemma ParseItemLineOfItem(d: Dialect, e: (string, int))
    requires CleanName(e.0)
    ensures ParseItemLine(d, ItemLine(e)) == Some(e)
  {
    var line := ItemLine(e);
    ItemLineChars(e);
    StripOfStripped(line);
    var digits := IntToString(e.1);
    assert digits[0] in digits;
    ItemLineSplit(e.0, digits);
    ParseStrippedAt(d, line, |e.0|);
    ReadWrittenPrice(d, e.1);
    StripOfStripped(e.0);
  }

  /** Either reader reads a written price back. */
  lemma ReadWrittenPrice(d: Dialect, n: int)
    ensures ReadPrice(d, IntToString(n)) == Some(n)
  {
    ParseIntToString(n);
    if d == IgnoreCase {
      WrittenIntStripped(n);
    }
  }

  lemma ParseStrippedAt(d: Dialect, line: string, i: nat)
    requires i < |line| && FirstIndex(line, '=') == i && line[0] != '['
    ensures ParseStripped(d, line) == Entry(line[..i], ReadPrice(d, line[i + 1..]))
  {
  }

  /** `name=digits` splits at its first `=` back into the two, and does not
      start with `[`. */
  lemma ItemLineSplit(name: string, digits: string)
    requires '=' !in name && '[' !in name && |digits| > 0 && digits[0] != '['
    ensures var line := name + "=" + digits;
            && FirstIndex(line, '=') == |name|
            && line[..|name|] == name
            && line[|name| + 1..] == digits
            && line[0] != '['
  {
    var line := name + "=" + digits;
    FirstIndexAfter(name, '=', digits);
    assert line[..|name|] == name;
    assert line[|name| + 1..] == digits;
    if |name| > 0 {
      assert line[0] == name[0];
    }
  }

  lemma {:induction false} CollectItemLines(d: Dialect, acc: Items, items: Items)
    requires CleanItems(items)
    requires UniqueKeys(acc + items)
    ensures Collect(acc, ItemLines(items), LineReader(d)) == acc + items
    decreases |items|
  {
    if |items| == 0 {
      assert acc + items == acc;
    } else {
      var e := items[0];
      var rest := items[1..];
      FreshKey(acc, items);
      assert forall i :: 0 <= i < |rest| ==> rest[i] == items[i + 1];
      CollectItemLines(d, acc + [e], rest);
      CollectItemLinesStep(d, acc, items);
    }
  }

  /** One written line read: its entry is appended to the dict. */
  lemma CollectItemLinesStep(d: Dialect, acc: Items, items: Items)
    requires |items| > 0 && CleanName(items[0].0)
    requires UniqueKeys(acc + items)
    requires Collect(acc + [items[0]], ItemLines(items[1..]), LineReader(d)) == (acc + [items[0]]) + items[1..]
    ensures Collect(acc, ItemLines(items), LineReader(d)) == acc + items
  {
    var e := items[0];
    var rest := items[1..];
    FreshKey(acc, items);
    ParseItemLineOfItem(d, e);
    ReaderReads(d, ItemLine(e));
    assert ItemLines(items) == [ItemLine(e)] + ItemLines(rest);
    CollectCons(acc, ItemLine(e), ItemLines(rest), LineReader(d));
    assert Put(acc, Some(e)) == acc + [e];
  }

  /** In a dict extended by `items`, the first new key is not yet present. */
  lemma FreshKey(acc: Items, items: Items)
    requires |items| > 0 && UniqueKeys(acc + items)
    ensures items[0].0 !in ToMap(acc)
    ensures acc + items == (acc + [items[0]]) + items[1..]
  {
    assert items == [items[0]] + items[1..];
    forall i | 0 <= i < |acc|
      ensures acc[i].0 != items[0].0
    {
      assert (acc + items)[i] == acc[i] && (acc + items)[|acc|] == items[0];
    }
  }

  lemma RenderNoBracket(items: Items)
    requires CleanItems(items)
    ensures '[' !in Render(items)
    ensures |items| > 0 ==> Render(items)[|Render(items)| - 1] == '\n'
  {
    if |items| > 0 {
      RenderIsJoin(items);
      ItemLinesShape(items);
      var lines := ItemLines(items);
      forall i | 0 <= i < |lines|
        ensures '[' !in lines[i]
      {
        ItemLineChars(items[i]);
      }
      JoinNoChar(lines, '\n', '[');
    }
  }

  lemma {:induction false} JoinNoChar(parts: seq<string>, sep: char, c: char)
    requires c != sep
    requires forall i :: 0 <= i < |parts| ==> c !in parts[i]
    ensures c !in Join(parts, sep)
    decreases |parts|
  {
    if |parts| > 1 {
      JoinNoChar(parts[1..], sep, c);
    }
  }

  lemma ItemLinesClean(items: Items)
    requires CleanItems(items)
    ensures |ItemLines(items)| == |items|
    ensures forall i :: 0 <= i < |items| ==>
              var line := ItemLines(items)[i];
              '\n' !in line && IsStripped(line) && |line| > 0
  {
    ItemLinesShape(items);
    forall i | 0 <= i < |items|
      ensures var line := ItemLines(items)[i];
              '\n' !in line && IsStripped(line) && |line| > 0
    {
      ItemLineChars(items[i]);
    }
  }

  /** Stripping the regenerated section body leaves the item lines joined. */
  lemma StripRenderedSection(items: Items, keepLast: bool)
    requires CleanItems(items) && |items| > 0
    ensures var full := "\n" + Render(items);
            Strip(if keepLast then full else full[..|full| - 1]) == Join(ItemLines(items), '\n')
  {
    RenderIsJoin(items);
    ItemLinesClean(items);
    var lines := ItemLines(items);
    var joined := Join(lines, '\n');
    var full := "\n" + Render(items);
    var body := full[..|full| - 1];
    assert full == "\n" + joined + "\n";
    assert body == ['\n'] + joined;
    assert body + ['\n'] == full;
    StripDropsTrailingSpace(body, '\n');
    StripDropsLeadingSpace('\n', joined);
    JoinStripped(lines);
    StripOfStripped(joined);
  }

  /** An empty regenerated section reads back as no items. */
  lemma ParseRenderedEmpty(d: Dialect, section: string)
    requires section == "" || section == "\n"
    ensures ParseSection(d, section) == []
  {
    StripOfStripped("");
    if section == "\n" {
      StripDropsTrailingSpace("", '\n');
      assert "" + ['\n'] == section;
    }
    ParseEmptyLine(d);
  }

  /** The one empty line of an empty section yields nothing. */
  lemma ParseEmptyLine(d: Dialect)
    ensures ParseSection(d, "") == []
  {
    StripOfStripped("");
    assert Split("", '\n') == [""];
    assert ParseItemLine(d, "") == None;
    ReaderReads(d, "");
    assert Collect([], [""], LineReader(d)) == Collect(Put([], None), [], LineReader(d));
  }

  lemma ParseItemSection(d: Dialect, items: Items, section: string)
    requires CleanItems(items) && UniqueKeys(items) && |items| > 0
    requires Strip(section) == Join(ItemLines(items), '\n')
    ensures ParseSection(d, section) == items
  {
    var lines := ItemLines(items);
    ItemLinesClean(items);
    SplitJoin(lines, '\n');
    CollectItemLines(d, [], items);
    assert [] + items == items;
  }

  /** The section body of a rewritten listing (with or without its last
      newline, depending on what follows it) reads back as the items written. */
  lemma ParseRendered(d: Dialect, items: Items, keepLast: bool)
    requires CleanItems(items) && UniqueKeys(items)
    ensures var full := "\n" + Render(items);
            ParseSection(d, if keepLast then full else full[..|full| - 1]) == items
  {
    var full := "\n" + Render(items);
    var section := if keepLast then full else full[..|full| - 1];
    if |items| == 0 {
      ParseRenderedEmpty(d, section);
    } else {
      StripRenderedSection(items, keepLast);
      ParseItemSection(d, items, section);
    }
  }

  lemma {:induction false} JoinStripped(parts: seq<string>)
    requires |parts| > 0
    requires forall i :: 0 <= i < |parts| ==> IsStripped(parts[i]) && |parts[i]| > 0
    ensures IsStripped(Join(parts, '\n'))
    decreases |parts|
  {
    if |parts| > 1 {
      JoinStripped(parts[1..]);
      var j := Join(parts, '\n');
      assert j[0] == parts[0][0];
    }
  }

  /** What may follow a section: nothing, another section, or a final newline. */
  predicate IsTail(a: string) {
    a == [] || a[0] == '[' || a == "\n"
  }

  lemma TailOfSection(text: string, e: nat)
    requires e <= |text| && IsSectionBoundary(text, e)
    ensures IsTail(text[e..])
  {
  }

  /** A regenerated section body: a newline, then lines free of `[`, each
      ending in a newline. */
  predicate IsRegenerated(body: string) {
    |body| > 0 && body[|body| - 1] == '\n' && '[' !in body
  }

  lemma RenderedIsRegenerated(items: Items)
    requires CleanItems(items)
    ensures IsRegenerated("\n" + Render(items))
  {
    RenderNoBracket(items);
  }

  /** In `pre + body + tail`, a section starting where `body` starts ends
      after it (before its last newline when nothing follows). */
  lemma {:induction false} SectionEndOfRegenerated(t: string, pre: string, body: string, tail: string)
    requires t == pre + body + tail
    requires IsRegenerated(body) && IsTail(tail)
    ensures |pre| <= |t|
    ensures SectionEnd(t, |pre|) == |pre| + |body| - (if tail == [] then 1 else 0)
  {
    var s0 := |pre|;
    var q := s0 + |body| - 1;
    forall p | s0 <= p < q
      ensures !IsSectionBoundary(t, p)
    {
      assert t[p] == body[p - s0];
    }
    assert t[q] == '\n';
    var e := if tail == [] then q else q + 1;
    assert IsSectionBoundary(t, e);
  }

  lemma MiddleSlice(a: string, b: string, c: string, k: nat)
    requires k <= |b|
    ensures (a + b + c)[|a|..|a| + k] == b[..k]
  {
    assert (a + b + c)[|a|..|a| + |b|] == b;
  }

  lemma HeaderWritten(t: string, pre: string, rest: string)
    requires t == pre + Header + rest
    ensures HeaderAt(Exact, t, |pre|)
  {
    MiddleSlice(pre, Header, rest, |Header|);
    assert Header[..|Header|] == Header;
    forall m | 0 <= m < |Header|
      ensures t[|pre| + m] == Header[m]
    {
      assert t[|pre|..|pre| + |Header|][m] == Header[m];
    }
  }

  lemma LocateFirst(d: Dialect, t: string, p: nat)
    requires HeaderAt(d, t, p)
    requires forall j :: 0 <= j < p ==> !HeaderAt(d, t, j)
    ensures Locate(d, t) == Some((p, SectionEnd(t, p + |Header|)))
  {
    FindHeaderIsFirst(d, t, p);
  }

  /** In a rewritten listing the header is found where it was written, and
      its section ends after the regenerated body. */
  lemma LocateRegenerated(t: string, pre: string, body: string, tail: string)
    requires t == pre + Header + body + tail
    requires IsRegenerated(body) && IsTail(tail)
    requires forall j :: 0 <= j < |pre| ==> !HeaderAt(Exact, t, j)
    ensures Locate(Exact, t) == Some((|pre|, |pre| + |Header| + |body| - (if tail == [] then 1 else 0)))
  {
    HeaderWritten(t, pre, body + tail);
    assert t == (pre + Header) + body + tail;
    SectionEndOfRegenerated(t, pre + Header, body, tail);
    LocateFirst(Exact, t, |pre|);
  }

  /** In a rewritten listing, the section read back is the regenerated body
      (without its last newline when nothing follows it). */
  lemma SectionOfRegenerated(t: string, pre: string, body: string, tail: string)
    requires t == pre + Header + body + tail
    requires IsRegenerated(body) && IsTail(tail)
    requires forall j :: 0 <= j < |pre| ==> !HeaderAt(Exact, t, j)
    ensures Locate(Exact, t).Some?
    ensures var span := Locate(Exact, t).value;
            && span.0 + |Header| <= span.1
            && t[span.0 + |Header|..span.1] == if tail == [] then body[..|body| - 1] else body
  {
    var s0 := |pre| + |Header|;
    var e := s0 + |body| - (if tail == [] then 1 else 0);
    LocateRegenerated(t, pre, body, tail);
    assert t == (pre + Header) + body + tail;
    MiddleSlice(pre + Header, body, tail, e - s0);
    var section := t[s0..e];
    assert section == body[..e - s0];
    if tail == [] {
      assert section == body[..|body| - 1];
    } else {
      assert section == body;
    }
  }

  /** Regrouping a written text as prefix, header, body and tail; kept as a
      lemma over variables so that callers do not reason about the literals. */
  lemma RegroupBody(pre: string, nl: string, r: string, tail: string)
    ensures pre + Header + nl + r + tail == pre + Header + (nl + r) + tail
  {
  }

  /** `Decode` reads the section `Locate` finds. */
  lemma DecodeSection(d: Dialect, t: string, section: string)
    requires Locate(d, t).Some?
    requires var span := Locate(d, t).value;
             t[span.0 + |Header|..span.1] == section
    ensures Decode(d, t) == ParseSection(d, section)
  {
    var span := Locate(d, t).value;
    assert Decode(d, t) == ParseSection(d, t[span.0 + |Header|..span.1]);
  }

  /** Read back, a rewritten listing yields the parse of its regenerated body
      (without the last newline when nothing follows it). */
  lemma DecodeRegenerated(t: string, pre: string, body: string, tail: string)
    requires t == pre + Header + body + tail
    requires IsRegenerated(body) && IsTail(tail)
    requires forall j :: 0 <= j < |pre| ==> !HeaderAt(Exact, t, j)
    ensures Decode(Exact, t) == ParseSection(Exact, if tail == [] then body[..|body| - 1] else body)
  {
    SectionOfRegenerated(t, pre, body, tail);
    DecodeSection(Exact, t, if tail == [] then body[..|body| - 1] else body);
  }

  /** A rewritten listing, located and read: the regenerated section holds
      exactly the written items. */
  lemma DecodeRendered(t: string, pre: string, items: Items, tail: string)
    requires CleanItems(items) && UniqueKeys(items)
    requires t == pre + Header + "\n" + Render(items) + tail
    requires IsTail(tail)
    requires forall j :: 0 <= j < |pre| ==> !HeaderAt(Exact, t, j)
    ensures Decode(Exact, t) == items
  {
    var body := "\n" + Render(items);
    RenderedIsRegenerated(items);
    RegroupBody(pre, "\n", Render(items), tail);
    DecodeRegenerated(t, pre, body, tail);
    if tail == [] {
      ParseRendered(Exact, items, false);
    } else {
      ParseRendered(Exact, items, true);
    }
  }

  /** A text holding nothing but a regenerated section reads back as its items. */
  lemma DecodeFresh(items: Items)
    requires CleanItems(items) && UniqueKeys(items)
    ensures Decode(Exact, Header + "\n" + Render(items)) == items
  {
    var t := Header + "\n" + Render(items);
    NoPadding(Header, "\n", Render(items));
    DecodeRendered(t, [], items, []);
  }

  /** A reader that locates the same section as the synchroniser in a text
      holding nothing but a regenerated section reads exactly its items. */
  lemma DecodeFreshAs(d: Dialect, items: Items)
    requires CleanItems(items) && UniqueKeys(items)
    requires Locate(d, Header + "\n" + Render(items)) == Locate(Exact, Header + "\n" + Render(items))
    ensures Decode(d, Header + "\n" + Render(items)) == items
  {
    var t := Header + "\n" + Render(items);
    var body := "\n" + Render(items);
    NoPadding(Header, "\n", Render(items));
    RegroupBody([], "\n", Render(items), []);
    RenderedIsRegenerated(items);
    SectionOfRegenerated(t, [], body, []);
    DecodeSection(d, t, body[..|body| - 1]);
    ParseRendered(d, items, false);
  }

  /** A section with nothing before or after it, in the shape `DecodeRendered` takes. */
  lemma NoPadding(h: string, nl: string, r: string)
    ensures [] + h + nl + r + [] == h + nl + r
  {
  }

  /** The header cannot straddle a newline. */
  lemma NoHeaderAcrossNewline(t: string, q: nat, j: int)
    requires q < |t| && t[q] == '\n'
    requires j <= q < j + |Header|
    ensures !HeaderAt(Exact, t, j)
  {
    var m := q - j;
    assert 0 <= m < |Header| && Header[m] != '\n';
    assert t[j + m] == '\n';
  }

  /** Two texts that agree on a prefix agree on every header inside it. */
  lemma HeaderInAgreedPrefix(d: Dialect, t1: string, t2: string, k: nat, j: int)
    requires k <= |t1| && k <= |t2| && t1[..k] == t2[..k]
    requires j + |Header| <= k
    ensures HeaderAt(d, t1, j) <==> HeaderAt(d, t2, j)
  {
    if 0 <= j {
      forall p | j <= p < j + |Header|
        ensures t1[p] == t2[p]
      {
        assert t1[..k][p] == t2[..k][p];
      }
    }
  }

  /** No header starts before the appended one: inside the old text there
      was none, and one reaching past it would straddle the separating newline. */
  lemma NoHeaderBeforeAppended(text: string, base: string, t: string, j: nat)
    requires Locate(Exact, text).None?
    requires base == text || base == text + "\n"
    requires |base| > 0 && base[|base| - 1] == '\n'
    requires |base| <= |t| && t[..|base|] == base
    requires j < |base|
    ensures !HeaderAt(Exact, t, j)
  {
    if j + |Header| <= |text| {
      assert t[..|text|] == text[..|text|];
      HeaderInAgreedPrefix(Exact, t, text, |text|, j);
    } else {
      assert t[|base| - 1] == '\n';
      NoHeaderAcrossNewline(t, |base| - 1, j);
    }
  }

  /** Appending a section to a text that had none: the items read back in
      dict order. */
  lemma DecodeAppended(text: string, items: Items)
    requires CleanItems(items) && UniqueKeys(items)
    requires Locate(Exact, text).None?
    ensures Decode(Exact, WriteListing(text, items)) == items
  {
    var t := WriteListing(text, items);
    var base := if |text| > 0 && text[|text| - 1] == '\n' then text else text + "\n";
    assert t == base + Header + "\n" + Render(items) + [];
    assert t[..|base|] == base;
    forall j | 0 <= j < |base|
      ensures !HeaderAt(Exact, t, j)
    {
      NoHeaderBeforeAppended(text, base, t, j);
    }
    DecodeRendered(t, base, items, []);
  }

  /** Appending to a text without a section: the header is then found right
      after the old text, at the start of a line, one newline later exactly
      when the old text did not already end in one (an empty text does not);
      the old text is kept whole before it, and the header and the items in
      dict order run from it to the end. */
  lemma AppendedSection(text: string, items: Items)
    requires Locate(Exact, text).None?
    ensures FindHeader(Exact, WriteListing(text, items)).Some?
    ensures var r := WriteListing(text, items);
            var p := FindHeader(Exact, r).value;
            && |text| <= p <= |text| + 1
            && r[..|text|] == text
            && 0 < p && r[p - 1] == '\n'
            && (p == |text| <==> |text| > 0 && text[|text| - 1] == '\n')
            && r[p..] == Header + "\n" + Render(items)
  {
    var base := if |text| > 0 && text[|text| - 1] == '\n' then text else text + "\n";
    AppendedText(text, items, base);
    AppendedHeaderFirst(text, items, base);
    SeparatedAppend(text, base, Header, "\n", Render(items), WriteListing(text, items));
  }

  lemma AppendedText(text: string, items: Items, base: string)
    requires Locate(Exact, text).None?
    requires base == if |text| > 0 && text[|text| - 1] == '\n' then text else text + "\n"
    ensures WriteListing(text, items) == base + Header + ("\n" + Render(items))
  {
  }

  /** The appended header is the first one in the written text. */
  lemma AppendedHeaderFirst(text: string, items: Items, base: string)
    requires Locate(Exact, text).None?
    requires base == if |text| > 0 && text[|text| - 1] == '\n' then text else text + "\n"
    ensures FindHeader(Exact, WriteListing(text, items)) == Some(|base|)
  {
    AppendedText(text, items, base);
    HeaderAfterBase(text, base, WriteListing(text, items), "\n" + Render(items));
  }

  /** A header written after a text without one, following a newline, is the
      first header of the result. */
  lemma HeaderAfterBase(text: string, base: string, t: string, rest: string)
    requires Locate(Exact, text).None?
    requires base == if |text| > 0 && text[|text| - 1] == '\n' then text else text + "\n"
    requires t == base + Header + rest
    ensures FindHeader(Exact, t) == Some(|base|)
  {
    assert t[..|base|] == base;
    HeaderWritten(t, base, rest);
    forall j | 0 <= j < |base|
      ensures !HeaderAt(Exact, t, j)
    {
      NoHeaderBeforeAppended(text, base, t, j);
    }
    FindHeaderIsFirst(Exact, t, |base|);
  }

  /** `h`, `nl` and `body` after `text`, with a newline between `text` and
      them unless `text` already ends in one. */
  lemma SeparatedAppend(text: string, base: string, h: string, nl: string, body: string, r: string)
    requires base == if |text| > 0 && text[|text| - 1] == '\n' then text else text + "\n"
    requires r == base + h + (nl + body)
    ensures |text| <= |base| <= |text| + 1
    ensures r[..|text|] == text && r[|base|..] == h + nl + body
    ensures 0 < |base| && r[|base| - 1] == '\n'
    ensures |base| == |text| <==> |text| > 0 && text[|text| - 1] == '\n'
  {
    assert r[..|base|] == base;
    assert r[..|text|] == base[..|text|];
    assert r[|base|..] == h + (nl + body);
  }

  /** The sorted items carry only names the section can hold. */
  lemma SortedClean(items: Items)
    requires CleanItems(items) && UniqueKeys(items)
    ensures CleanItems(SortByKey(items)) && UniqueKeys(SortByKey(items))
    ensures ToMap(SortByKey(items)) == ToMap(items)
  {
    var sorted := SortByKey(items);
    SortByKeySorted(items);
    forall i | 0 <= i < |sorted|
      ensures CleanName(sorted[i].0)
    {
      assert sorted[i] in items;
      var j :| 0 <= j < |items| && items[j] == sorted[i];
      assert CleanName(items[j].0);
    }
  }

  /** The shape of a replaced section: the old text before the header, the
      header, the sorted items, and the old text after the section; no header
      starts earlier. */
  lemma ReplacedShape(text: string, items: Items)
    requires Locate(Exact, text).Some?
    ensures var span := Locate(Exact, text).value;
            var t := WriteListing(text, items);
            && t == text[..span.0] + Header + "\n" + Render(SortByKey(items)) + text[span.1..]
            && IsTail(text[span.1..])
            && forall j :: 0 <= j < span.0 ==> !HeaderAt(Exact, t, j)
  {
    var span := Locate(Exact, text).value;
    var t := WriteListing(text, items);
    TailOfSection(text, span.1);
    var k := span.0 + |Header|;
    assert text[span.0..k] == Header;
    assert t[..k] == text[..k];
    forall j | 0 <= j < span.0
      ensures !HeaderAt(Exact, t, j)
    {
      HeaderInAgreedPrefix(Exact, t, text, k, j);
    }
  }

  /** Replacing an existing section: the items read back sorted by name. */
  lemma DecodeReplaced(text: string, items: Items)
    requires CleanItems(items) && UniqueKeys(items)
    requires Locate(Exact, text).Some?
    ensures Decode(Exact, WriteListing(text, items)) == SortByKey(items)
  {
    var span := Locate(Exact, text).value;
    var t := WriteListing(text, items);
    SortedClean(items);
    ReplacedShape(text, items);
    DecodeRendered(t, text[..span.0], SortByKey(items), text[span.1..]);
  }

  /** Reading back a rewritten listing gives exactly the items written: sorted
      by name when the section was replaced, in dict order when it was
      appended; as a name-to-price map, the items themselves either way. */
  lemma WriteThenDecode(text: string, items: Items)
    requires CleanItems(items) && UniqueKeys(items)
    ensures Decode(Exact, WriteListing(text, items))
            == if Locate(Exact, text).Some? then SortByKey(items) else items
    ensures ToMap(Decode(Exact, WriteListing(text, items))) == ToMap(items)
  {
    if Locate(Exact, text).Some? {
      DecodeReplaced(text, items);
      SortedClean(items);
    } else {
      DecodeAppended(text, items);
    }
  }

  // ---------------------------------------------------------------- rewriting twice

  /** Writing over a text that already holds a regenerated section replaces
      exactly that section.  When nothing followed it, the section's last
      newline was not part of it and is kept, so one extra newline appears. */
  lemma WriteOverRegenerated(t: string, pre: string, written: Items, tail: string, items: Items)
    requires CleanItems(written) && IsTail(tail)
    requires t == pre + Header + "\n" + Render(written) + tail
    requires forall j :: 0 <= j < |pre| ==> !HeaderAt(Exact, t, j)
    ensures WriteListing(t, items)
            == pre + Header + "\n" + Render(SortByKey(items)) + (if tail == [] then "\n" else tail)
  {
    var body := "\n" + Render(written);
    RenderedIsRegenerated(written);
    RegroupBody(pre, "\n", Render(written), tail);
    LocateRegenerated(t, pre, body, tail);
    WriteAt(t, items);
    Assoc4(pre, Header, body, tail);
    SplitAround(t, pre, Header + body, tail);
    if tail == [] {
      LastOfJoin(pre + Header, body);
    }
  }

  /** Regrouping four pieces, over variables rather than the written strings. */
  lemma Assoc4(a: string, b: string, c: string, d: string)
    ensures a + b + c + d == a + (b + c) + d
  {
  }

  /** The cut-out pieces of `pre + mid + tail`. */
  lemma SplitAround(t: string, pre: string, mid: string, tail: string)
    requires t == pre + mid + tail
    ensures t[..|pre|] == pre && t[|pre| + |mid|..] == tail
  {
    assert t[..|pre|] == pre;
    assert t[|pre| + |mid|..] == tail;
  }

  lemma LastOfJoin(a: string, body: string)
    requires |body| > 0
    ensures (a + body)[|a| + |body| - 1..] == [body[|body| - 1]]
  {
    assert (a + body)[|a| + |body| - 1] == body[|body| - 1];
  }

  /** `write_bzr_file` where the header is found: the span is cut out. */
  lemma WriteAt(t: string, items: Items)
    requires Locate(Exact, t).Some?
    ensures var span := Locate(Exact, t).value;
            WriteListing(t, items) == t[..span.0] + Header + "\n" + Render(SortByKey(items)) + t[span.1..]
  {
  }

  /** Rewriting a section that is followed by more text (another section or
      a final newline) with the same items changes nothing. */
  lemma RewriteStable(text: string, items: Items)
    requires CleanItems(items) && UniqueKeys(items)
    requires Locate(Exact, text).Some? && Locate(Exact, text).value.1 < |text|
    ensures WriteListing(WriteListing(text, items), items) == WriteListing(text, items)
  {
    var span := Locate(Exact, text).value;
    SortedClean(items);
    ReplacedShape(text, items);
    WriteOverRegenerated(WriteListing(text, items), text[..span.0], SortByKey(items), text[span.1..], items);
  }

  /** Rewriting a section that runs to the end of the text is not stable: the
      second write keeps the newline the section match left out, so the text
      grows by one newline. */
  lemma RewriteAtEndGrows(text: string, items: Items)
    requires CleanItems(items) && UniqueKeys(items)
    requires Locate(Exact, text).Some? && Locate(Exact, text).value.1 == |text|
    ensures WriteListing(WriteListing(text, items), items) == WriteListing(text, items) + "\n"
  {
    var span := Locate(Exact, text).value;
    SortedClean(items);
    ReplacedShape(text, items);
    assert text[span.1..] == [];
    WriteOverRegenerated(WriteListing(text, items), text[..span.0], SortByKey(items), [], items);
  }

  /** Every written text is some prefix, the header, a regenerated section
      and a tail, with no header in the prefix. */
  lemma WrittenShape(text: string, items: Items) returns (pre: string, order: Items, tail: string)
    requires CleanItems(items) && UniqueKeys(items)
    ensures CleanItems(order) && IsTail(tail)
    ensures WriteListing(text, items) == pre + Header + "\n" + Render(order) + tail
    ensures forall j :: 0 <= j < |pre| ==> !HeaderAt(Exact, WriteListing(text, items), j)
  {
    var t := WriteListing(text, items);
    if Locate(Exact, text).Some? {
      var span := Locate(Exact, text).value;
      SortedClean(items);
      ReplacedShape(text, items);
      pre, order, tail := text[..span.0], SortByKey(items), text[span.1..];
    } else {
      var base := if |text| > 0 && text[|text| - 1] == '\n' then text else text + "\n";
      assert t == base + Header + "\n" + Render(items) + [];
      assert t[..|base|] == base;
      forall j | 0 <= j < |base|
        ensures !HeaderAt(Exact, t, j)
      {
        NoHeaderBeforeAppended(text, base, t, j);
      }
      pre, order, tail := base, items, [];
    }
  }

  /** A written text holds a section, and something (at least the last
      newline) follows it. */
  lemma WrittenSectionFollowed(text: string, items: Items)
    requires CleanItems(items) && UniqueKeys(items)
    ensures Locate(Exact, WriteListing(text, items)).Some?
    ensures Locate(Exact, WriteListing(text, items)).value.1 < |WriteListing(text, items)|
  {
    var t := WriteListing(text, items);
    var pre, order, tail := WrittenShape(text, items);
    RenderedIsRegenerated(order);
    RegroupBody(pre, "\n", Render(order), tail);
    LocateRegenerated(t, pre, "\n" + Render(order), tail);
  }

  /** From the second write on, writing the same items leaves the file as it
      is: the write settles after at most one extra newline. */
  lemma WriteSettles(text: string, items: Items)
    requires CleanItems(items) && UniqueKeys(items)
    ensures var once := WriteListing(text, items);
            var twice := WriteListing(once, items);
            WriteListing(twice, items) == twice
  {
    var once := WriteListing(text, items);
    WrittenSectionFollowed(text, items);
    RewriteStable(once, items);
  }
}

=== FILE: monitor.dfy ===
/** The sales monitor: it reads the character's listing for prices and the
    inventory file for what sits in the trader satchels, and, whenever the
    inventory file's modification time moves forward, reports the items whose
    slots emptied since the last snapshot it kept. */
module Monitor {
  import opened Wrappers
  import opened Text
  import opened Dict
  import opened Listing
  import opened Inventory
  import Reconcile

  // ---------------------------------------------------------------- prices

  /** `load_bzr_file`: the listing read with the header matched ignoring case.
      Prices stay in copper; the monitor only ever compares them with zero. */
  function LoadPrices(text: string): (r: Items)
    ensures UniqueKeys(r)
    ensures (forall j :: 0 <= j ==> !HeaderAt(IgnoreCase, text, j)) ==> r == []
    ensures forall e :: e in r ==> CleanName(e.0)
  {
    DecodeNamesClean(IgnoreCase, text);
    Decode(IgnoreCase, text)
  }

  /** Wherever the header is spelled exactly, the case-insensitive search
      finds it too. */
  lemma ExactHeaderFoundIgnoringCase(t: string, i: int)
    requires HeaderAt(Exact, t, i)
    ensures HeaderAt(IgnoreCase, t, i)
  {
    forall m | 0 <= m < |Header|
      ensures FoldMatches(t[i + m], Header[m])
    {
      assert t[i + m] == Header[m];
    }
  }

  /** The monitor also accepts spellings the synchroniser does not. */
  lemma LowerCaseHeaderAccepted()
    ensures HeaderAt(IgnoreCase, "[itemtosell]", 0)
    ensures !HeaderAt(Exact, "[itemtosell]", 0)
  {
    assert "[itemtosell]"[1] != Header[1];
  }

  /** When no case variant of the header comes before the first exact one,
      the monitor locates the same section as the synchroniser. */
  lemma MonitorFindsSameSection(t: string, p: nat)
    requires FindHeader(Exact, t) == Some(p)
    requires forall j :: 0 <= j < p ==> !HeaderAt(IgnoreCase, t, j)
    ensures Locate(IgnoreCase, t) == Locate(Exact, t)
  {
    ExactHeaderFoundIgnoringCase(t, p);
    FindHeaderIsFirst(IgnoreCase, t, p);
  }

  /** In that case the two read the same items from a listing, unless an
      information separator is about, which the monitor's `price.strip()`
      removes before `int()` and the synchroniser's `int()` rejects
      (`SeparatorPriceReadOnlyByMonitor`). */
  lemma MonitorReadsAsSynchronizer(t: string, p: nat)
    requires FindHeader(Exact, t) == Some(p)
    requires forall j :: 0 <= j < p ==> !HeaderAt(IgnoreCase, t, j)
    requires NoInfoSeparator(t)
    ensures LoadPrices(t) == Decode(Exact, t)
  {
    MonitorFindsSameSection(t, p);
    var span := Locate(Exact, t).value;
    var section := t[span.0 + |Header|..span.1];
    assert forall k :: 0 <= k < |section| ==> section[k] == t[span.0 + |Header| + k];
    SectionReadsAlike(section);
  }

  /** A listing made of one regenerated section, as the synchroniser writes
      for a new trader, gives the monitor exactly its items. */
  lemma MonitorReadsFreshListing(items: Items)
    requires CleanItems(items) && UniqueKeys(items)
    ensures LoadPrices(Header + "\n" + Render(items)) == items
  {
    var t := Header + "\n" + Render(items);
    assert t[..|Header|] == Header;
    assert HeaderAt(Exact, t, 0);
    MonitorFindsSameSection(t, 0);
    DecodeFreshAs(IgnoreCase, items);
  }

  /** `name in item_prices and item_prices[name] > 0`: the price an item is
      reported and shown with, if it has a positive one. */
  function PriceOf(prices: Items, name: string): (r: Option<int>)
    ensures r.Some? <==> name in ToMap(prices) && ToMap(prices)[name] > 0
    ensures r.Some? ==> r.value > 0 && r.value == ToMap(prices)[name]
  {
    match Get(prices, name)
    case Some(p) => if p > 0 then Some(p) else None
    case None => None
  }

  // ---------------------------------------------------------------- sales

  /** The slots of the previous snapshot, in its order, whose slot the current
      snapshot no longer holds: the items taken as sold. */
  function SoldEntries(last: Snapshot, current: Snapshot): (r: Snapshot)
    ensures |r| <= |last|
    ensures forall e :: e in r <==> e in last && e.0 !in KeySet(current)
  {
    if |last| == 0 then []
    else
      var rest := SoldEntries(last[1..], current);
      assert forall e :: e in last <==> e == last[0] || e in last[1..];
      if last[0].0 in KeySet(current) then rest else [last[0]] + rest
  }

  /** The sold entries follow the previous snapshot's order: splitting the
      snapshot splits the report. */
  lemma {:induction false} SoldEntriesAppend(a: Snapshot, b: Snapshot, current: Snapshot)
    ensures SoldEntries(a + b, current) == SoldEntries(a, current) + SoldEntries(b, current)
    decreases |a|
  {
    if |a| == 0 {
      assert a + b == b;
    } else {
      assert (a + b)[1..] == a[1..] + b;
      SoldEntriesAppend(a[1..], b, current);
    }
  }

  /** Nothing sells while every previously filled slot is still filled. */
  lemma {:induction false} NothingSoldWhileOccupied(last: Snapshot, current: Snapshot)
    requires forall i :: 0 <= i < |last| ==> last[i].0 in KeySet(current)
    ensures SoldEntries(last, current) == []
    decreases |last|
  {
    if |last| > 0 {
      assert forall i :: 1 <= i < |last| ==> last[1..][i - 1] == last[i];
      NothingSoldWhileOccupied(last[1..], current);
    }
  }

  /** An unchanged inventory sells nothing. */
  lemma NothingSoldWhenUnchanged(s: Snapshot)
    ensures SoldEntries(s, s) == []
  {
    NothingSoldWhileOccupied(s, s);
  }

  /** When the inventory file is gone, every item of the previous snapshot
      counts as sold. */
  lemma {:induction false} EverythingSoldWhenFileMissing(last: Snapshot)
    ensures SoldEntries(last, LoadInventory(None)) == last
    decreases |last|
  {
    if |last| > 0 {
      EverythingSoldWhenFileMissing(last[1..]);
    }
  }

  /** One reported sale: the item and its copper price. */
  datatype Sale = Sale(item: Item, price: int)

  /** The sales written to the log: the sold items, in order, that have a
      positive price; the others are only noted as ignored. */
  function LoggedSales(sold: Snapshot, prices: Items): (r: seq<Sale>)
    ensures |r| <= |sold|
    ensures forall s :: s in r ==>
              (exists i :: 0 <= i < |sold| && sold[i].1 == s.item) && PriceOf(prices, s.item.name) == Some(s.price)
    ensures forall i :: 0 <= i < |sold| && PriceOf(prices, sold[i].1.name).Some? ==>
              Sale(sold[i].1, PriceOf(prices, sold[i].1.name).value) in r
  {
    if |sold| == 0 then []
    else
      var rest := LoggedSales(sold[1..], prices);
      assert forall i :: 1 <= i < |sold| ==> sold[1..][i - 1] == sold[i];
      match PriceOf(prices, sold[0].1.name)
      case Some(p) => [Sale(sold[0].1, p)] + rest
      case None => rest
  }

  /** One sold entry is logged once, at its price, exactly when it has a
      positive price. */
  lemma LoggedSaleOne(e: (string, Item), prices: Items)
    ensures LoggedSales([e], prices)
            == if PriceOf(prices, e.1.name).Some? then [Sale(e.1, PriceOf(prices, e.1.name).value)] else []
  {
    assert [e][1..] == [];
  }

  /** The log follows the sold entries one by one, in their order, with one
      line per sold entry: the log of two runs of entries is the first run's
      log followed by the second's. */
  lemma {:induction false} LoggedSalesAppend(a: Snapshot, b: Snapshot, prices: Items)
    ensures LoggedSales(a + b, prices) == LoggedSales(a, prices) + LoggedSales(b, prices)
    decreases |a|
  {
    if |a| == 0 {
      assert a + b == b;
    } else {
      assert (a + b)[1..] == a[1..] + b;
      assert (a + b)[0] == a[0];
      LoggedSalesAppend(a[1..], b, prices);
    }
  }

  /** What one `check_for_sales` finds and leaves behind: the sold entries,
      the sales it logs, and the snapshot kept for the next check. */
  datatype Check = Check(sold: Snapshot, sales: seq<Sale>, lastAfter: Snapshot)

  /** `check_for_sales`: compare the kept snapshot with the current one; the
      kept snapshot is replaced by the current one only when something sold. */
  function CheckForSales(last: Snapshot, current: Snapshot, prices: Items): (r: Check)
    ensures forall e :: e in r.sold <==> e in last && e.0 !in KeySet(current)
    ensures forall s :: s in r.sales ==>
              (exists i :: 0 <= i < |r.sold| && r.sold[i].1 == s.item) && PriceOf(prices, s.item.name) == Some(s.price)
    ensures forall i :: 0 <= i < |r.sold| && PriceOf(prices, r.sold[i].1.name).Some? ==>
              Sale(r.sold[i].1, PriceOf(prices, r.sold[i].1.name).value) in r.sales
    ensures |r.sold| > 0 ==> r.sales == LoggedSales(r.sold, prices)
    ensures |r.sold| > 0 ==> r.lastAfter == current
    ensures |r.sold| == 0 ==> r.lastAfter == last && r.sales == []
  {
    var sold := SoldEntries(last, current);
    if |sold| > 0 then Check(sold, LoggedSales(sold, prices), current)
    else Check([], [], last)
  }

  /** A slot that is still occupied is never reported, whatever it holds now. */
  lemma OccupiedSlotNotSold(last: Snapshot, current: Snapshot, prices: Items, slot: string)
    requires slot in KeySet(current)
    ensures forall i :: 0 <= i < |CheckForSales(last, current, prices).sold| ==>
              CheckForSales(last, current, prices).sold[i].0 != slot
  {
    var r := CheckForSales(last, current, prices);
    forall i | 0 <= i < |r.sold|
      ensures r.sold[i].0 != slot
    {
      assert r.sold[i] in r.sold;
    }
  }

  /** Checking again against the same inventory reports nothing and keeps
      the same snapshot: every sale is reported once. */
  lemma CheckAgainReportsNothing(last: Snapshot, current: Snapshot, prices: Items)
    ensures var first := CheckForSales(last, current, prices);
            var second := CheckForSales(first.lastAfter, current, prices);
            second.sold == [] && second.sales == [] && second.lastAfter == first.lastAfter
  {
    var first := CheckForSales(last, current, prices);
    if |first.sold| > 0 {
      NothingSoldWhenUnchanged(current);
    }
  }

  /** The worked case: a priced sword leaves its slot and is reported at its
      price. */
  lemma SwordSold()
    ensures var last := [("General1-Slot1", Item("Sword", "100"))];
            var r := CheckForSales(last, [], [("Sword", 5)]);
            r.sales == [Sale(Item("Sword", "100"), 5)] && r.lastAfter == []
  {
    var last := [("General1-Slot1", Item("Sword", "100"))];
    assert SoldEntries(last, []) == last;
    assert Get([("Sword", 5)], "Sword") == Some(5);
  }

  /** Because the kept snapshot only moves when something sold, an item put
      up between two checks and sold before any other sale is never
      reported: the check that sees its slot empty never knew the slot. */
  lemma NewItemSaleUnreported()
    ensures var sword := ("General1-Slot1", Item("Sword", "100"));
            var shield := ("General1-Slot2", Item("Shield", "200"));
            var prices := [("Sword", 5), ("Shield", 7)];
            var first := CheckForSales([sword], [sword, shield], prices);
            var second := CheckForSales(first.lastAfter, [sword], prices);
            && first.sold == [] && second.sold == []
            && SoldEntries([sword, shield], [sword]) == [shield]
  {
    var sword := ("General1-Slot1", Item("Sword", "100"));
    var shield := ("General1-Slot2", Item("Shield", "200"));
    assert [sword, shield][0] == sword;
    assert sword.0 in KeySet([sword, shield]);
    assert SoldEntries([sword], [sword, shield]) == [];
    assert [sword][0] == sword;
    assert SoldEntries([sword], [sword]) == [];
    assert shield.0 !in KeySet([sword]);
    assert SoldEntries([shield], [sword]) == [shield];
    assert [sword, shield][1..] == [shield];
  }

  // ---------------------------------------------------------------- display

  /** `update_items_display`: the satchel items that have a positive price,
      in snapshot order, with that price. */
  function Displayed(current: Snapshot, prices: Items): (r: seq<(Item, int)>)
    ensures |r| <= |current|
    ensures forall x :: x in r ==>
              (exists i :: 0 <= i < |current| && current[i].1 == x.0) && PriceOf(prices, x.0.name) == Some(x.1)
    ensures forall i :: 0 <= i < |current| && PriceOf(prices, current[i].1.name).Some? ==>
              (current[i].1, PriceOf(prices, current[i].1.name).value) in r
  {
    if |current| == 0 then []
    else
      var rest := Displayed(current[1..], prices);
      assert forall i :: 1 <= i < |current| ==> current[1..][i - 1] == current[i];
      match PriceOf(prices, current[0].1.name)
      case Some(p) => [(current[0].1, p)] + rest
      case None => rest
  }

  /** The count of satchel items shown as ignored: no price, or not a
      positive one. */
  function Ignored(current: Snapshot, prices: Items): nat {
    if |current| == 0 then 0
    else (if PriceOf(prices, current[0].1.name).None? then 1 else 0) + Ignored(current[1..], prices)
  }

  /** Every satchel item is either shown or counted as ignored, never both. */
  lemma {:induction false} DisplayPartition(current: Snapshot, prices: Items)
    ensures |Displayed(current, prices)| + Ignored(current, prices) == |current|
    decreases |current|
  {
    if |current| > 0 {
      DisplayPartition(current[1..], prices);
    }
  }

  // ---------------------------------------------------------------- polling

  /** The monitor loop's memory: the last modification time it acted on. */
  datatype Watch = Watch(lastModified: int)

  /** Starting to monitor: the file's modification time, or 0 when it is missing. */
  function StartWatch(mtime: Option<int>): (w: Watch)
    ensures mtime.Some? ==> w.lastModified == mtime.value
    ensures mtime.None? ==> w.lastModified == 0
  {
    Watch(if mtime.Some? then mtime.value else 0)
  }

  /** One pass of `monitor_inventory`'s loop, given the file's modification
      time if the file exists: check for sales only when the time moved
      strictly forward, and remember it. */
  function Poll(w: Watch, mtime: Option<int>): (r: (Watch, bool))
    ensures r.1 <==> mtime.Some? && mtime.value > w.lastModified
    ensures r.0.lastModified >= w.lastModified
    ensures r.1 ==> r.0.lastModified == mtime.value
    ensures !r.1 ==> r.0 == w
  {
    match mtime
    case None => (w, false)
    case Some(t) => if t > w.lastModified then (Watch(t), true) else (w, false)
  }

  /** The first pass after starting: a file not modified since monitoring
      started is not checked, and a file missing at the start is checked as
      soon as it shows a positive modification time. */
  lemma StartThenPoll(mtime: int, t: int)
    ensures !Poll(StartWatch(Some(mtime)), Some(mtime)).1
    ensures Poll(StartWatch(Some(mtime)), Some(t)).1 <==> t > mtime
    ensures Poll(StartWatch(None), Some(t)).1 <==> t > 0
    ensures !Poll(StartWatch(None), None).1
  {
  }

  /** A second pass that sees the same modification time does nothing. */
  lemma PollSameTimeIdle(w: Watch, mtime: Option<int>)
    ensures Poll(Poll(w, mtime).0, mtime) == (Poll(w, mtime).0, false)
  {
  }

  /** The watch after a run of passes. */
  function PollAll(w: Watch, mtimes: seq<Option<int>>): Watch
    decreases |mtimes|
  {
    if |mtimes| == 0 then w else PollAll(Poll(w, mtimes[0]).0, mtimes[1..])
  }

  /** The largest of `start` and the times observed. */
  function Latest(start: int, mtimes: seq<Option<int>>): (r: int)
    ensures r >= start
    ensures forall i :: 0 <= i < |mtimes| && mtimes[i].Some? ==> r >= mtimes[i].value
    ensures r == start || exists i :: 0 <= i < |mtimes| && mtimes[i] == Some(r)
    decreases |mtimes|
  {
    if |mtimes| == 0 then start
    else
      var t := if mtimes[0].Some? && mtimes[0].value > start then mtimes[0].value else start;
      var r := Latest(t, mtimes[1..]);
      assert forall i :: 1 <= i < |mtimes| ==> mtimes[1..][i - 1] == mtimes[i];
      r
  }

  /** After any run of passes the watch holds the latest time seen, so a
      file whose time goes backwards is not checked again until it passes
      that time. */
  lemma {:induction false} PollAllLatest(w: Watch, mtimes: seq<Option<int>>)
    ensures PollAll(w, mtimes).lastModified == Latest(w.lastModified, mtimes)
    decreases |mtimes|
  {
    if |mtimes| > 0 {
      PollAllLatest(Poll(w, mtimes[0]).0, mtimes[1..]);
    }
  }

  // ---------------------------------------------------------------- session

  /** What the monitor holds once a character's data is loaded. */
  datatype Session = Session(prices: Items, last: Snapshot)

  datatype LoadError = MissingCharacterName | MissingRootDirectory | ListingNotFound | InventoryNotFound

  /** The listing file of a character in the chosen directory. */
  function ListingFileName(character: string): string {
    "BZR_" + character + "_pq.proj.ini"
  }

  /** The inventory file of a character in the chosen directory. */
  function InventoryFileName(character: string): string {
    character + "-Inventory.txt"
  }

  /** `load_character_data` against the files of the chosen directory (name
      to text): a character name and a directory are needed, then both
      files; the prices and the first snapshot are read from them. */
  function LoadSession(character: string, directorySelected: bool, files: map<string, string>): (r: Result<Session, LoadError>)
    ensures r.Success? <==>
              character != [] && directorySelected
              && ListingFileName(character) in files && InventoryFileName(character) in files
    ensures r.Success? ==> r.value.prices == LoadPrices(files[ListingFileName(character)])
    ensures r.Success? ==> r.value.last == LoadInventory(Some(files[InventoryFileName(character)]))
  {
    if character == [] then Failure(MissingCharacterName)
    else if !directorySelected then Failure(MissingRootDirectory)
    else if ListingFileName(character) !in files then Failure(ListingNotFound)
    else if InventoryFileName(character) !in files then Failure(InventoryNotFound)
    else
      Success(Session(LoadPrices(files[ListingFileName(character)]),
                      LoadInventory(Some(files[InventoryFileName(character)]))))
  }

  /** One pass of the loop against the inventory file (its modification time
      and text) when it exists: the watch moves and, if the time moved
      forward, sales are checked against the file's current snapshot. */
  function Tick(s: Session, w: Watch, file: Option<(int, string)>): (r: (Session, Watch, seq<Sale>))
    ensures file.None? ==> r == (s, w, [])
    ensures r.1.lastModified >= w.lastModified
    ensures r.0.prices == s.prices
    ensures file.Some? && file.value.0 > w.lastModified ==>
              var c := CheckForSales(s.last, LoadInventory(Some(file.value.1)), s.prices);
              r.2 == c.sales && r.0.last == c.lastAfter
    ensures r.2 != [] ==> file.Some? && file.value.0 > w.lastModified
  {
    match file
    case None => (s, w, [])
    case Some(f) =>
      var (w', due) := Poll(w, Some(f.0));
      if due then
        var c := CheckForSales(s.last, LoadInventory(Some(f.1)), s.prices);
        (Session(s.prices, c.lastAfter), w', c.sales)
      else (s, w', [])
  }

  /** Two passes over the same unchanged file report its sales at most once. */
  lemma TickTwiceReportsOnce(s: Session, w: Watch, file: Option<(int, string)>)
    ensures var (s1, w1, _) := Tick(s, w, file);
            Tick(s1, w1, file) == (s1, w1, [])
  {
  }

  /** The file the synchroniser makes for a new trader is the listing the
      monitor loads for that character, and the monitor reads from it the
      synchronised prices, sorted by name. */
  lemma MonitorLoadsNewTraderFile(traderName: string, synchronized: Items, fileExists: bool,
                                  overwrite: bool, files: map<string, string>)
    requires CleanItems(synchronized) && UniqueKeys(synchronized)
    requires Reconcile.NewTraderFile(true, traderName, synchronized, fileExists, overwrite).Success?
    requires var f := Reconcile.NewTraderFile(true, traderName, synchronized, fileExists, overwrite).value;
             f.name in files && files[f.name] == f.content
    requires InventoryFileName(Strip(traderName)) in files
    ensures Reconcile.NewTraderFile(true, traderName, synchronized, fileExists, overwrite).value.name
              == ListingFileName(Strip(traderName))
    ensures LoadSession(Strip(traderName), true, files).Success?
    ensures LoadSession(Strip(traderName), true, files).value.prices == SortByKey(synchronized)
  {
    SortedClean(synchronized);
    MonitorReadsFreshListing(SortByKey(synchronized));
  }
}

=== FILE: reconcile.dfy ===
/** Price synchronisation across a trader's listing files: every file is read,
    each item's canonical price is the lowest strictly positive price any file
    lists it at, and that price is pushed into every file (added where missing,
    overwritten where different, nothing deleted).  A file is rewritten only
    when something in it changed.  A new trader's file is built from the
    canonical table. */
module Reconcile {
  import opened Wrappers
  import opened Text
  import opened Dict
  import opened Listing

  /** Every file read holds each name at most once. */
  predicate AllUnique(files: seq<Items>) {
    forall i :: 0 <= i < |files| ==> UniqueKeys(files[i])
  }

  /** File `i` lists item `n` at price `p`. */
  predicate Offers(files: seq<Items>, i: int, n: string, p: int) {
    0 <= i < |files| && Get(files[i], n) == Some(p)
  }

  /** The prices of `n`, one per file that lists it, in file order: the
      reference for what the collection loop gathers. */
  function PricesOf(files: seq<Items>, n: string): seq<int> {
    if |files| == 0 then [] else PricesOf(files[..|files| - 1], n) + AsList(Get(files[|files| - 1], n))
  }

  /** An optional value as a list of zero or one elements. */
  function AsList(o: Option<int>): (r: seq<int>)
    ensures |r| <= 1 && (forall x :: x in r <==> o == Some(x))
  {
    if o.Some? then [o.value] else []
  }

  lemma {:induction false} PricesOfOffers(files: seq<Items>, n: string)
    ensures forall x :: x in PricesOf(files, n) <==> exists i :: Offers(files, i, n, x)
    decreases |files|
  {
    if |files| > 0 {
      var init := files[..|files| - 1];
      var last := |files| - 1;
      var here := Get(files[last], n);
      PricesOfOffers(init, n);
      assert PricesOf(files, n) == PricesOf(init, n) + AsList(here);
      forall x
        ensures x in PricesOf(files, n) <==> exists i :: Offers(files, i, n, x)
      {
        if x in PricesOf(init, n) {
          var i :| Offers(init, i, n, x);
          assert Offers(files, i, n, x);
        }
        if here == Some(x) {
          assert Offers(files, last, n, x);
        }
        if exists i :: Offers(files, i, n, x) {
          var i :| Offers(files, i, n, x);
          if i < |init| {
            assert Offers(init, i, n, x);
          } else {
            assert here == Some(x);
          }
        }
      }
    }
  }

  // ---------------------------------------------------------------- gathering

  /** `all_items`: each name, in order of first appearance, with the list of
      prices it was seen at. */
  type Observations = seq<(string, seq<int>)>

  /** `all_items[n]`, which is empty for a name never seen. */
  function Lookup(obs: Observations, n: string): seq<int> {
    if n in ToMap(obs) then ToMap(obs)[n] else []
  }

  /** The loop over one file's entries: each price appended to its name's list. */
  function Observe(obs: Observations, items: Items): (r: Observations)
    ensures UniqueKeys(obs) ==> UniqueKeys(r)
    ensures |r| >= |obs| && (|items| > 0 ==> |r| > 0)
    decreases |items|
  {
    if |items| == 0 then obs
    else
      var o := Observe(obs, items[..|items| - 1]);
      var e := items[|items| - 1];
      Set(o, e.0, Lookup(o, e.0) + [e.1])
  }

  /** The loop over all files, in file order. */
  function Gather(files: seq<Items>): (r: Observations)
    ensures UniqueKeys(r)
    ensures |r| == 0 <==> forall i :: 0 <= i < |files| ==> files[i] == []
  {
    if |files| == 0 then []
    else
      var r := Observe(Gather(files[..|files| - 1]), files[|files| - 1]);
      assert forall i :: 0 <= i < |files| - 1 ==> files[..|files| - 1][i] == files[i];
      r
  }

  lemma UniqueInit(items: Items)
    requires UniqueKeys(items) && |items| > 0
    ensures UniqueKeys(items[..|items| - 1])
    ensures items[|items| - 1].0 !in ToMap(items[..|items| - 1])
  {
    var init := items[..|items| - 1];
    assert forall i :: 0 <= i < |init| ==> init[i] == items[i];
  }

  /** One file contributes its price for `n`, if it lists `n`, to the end of `n`'s list. */
  lemma {:induction false} ObserveLookup(obs: Observations, items: Items, n: string)
    requires UniqueKeys(items)
    ensures Lookup(Observe(obs, items), n) == Lookup(obs, n) + AsList(Get(items, n))
    ensures n in ToMap(Observe(obs, items)) <==> n in ToMap(obs) || n in ToMap(items)
    decreases |items|
  {
    if |items| > 0 {
      var init := items[..|items| - 1];
      var e := items[|items| - 1];
      var o := Observe(obs, init);
      assert Observe(obs, items) == Set(o, e.0, Lookup(o, e.0) + [e.1]);
      UniqueInit(items);
      ObserveLookup(obs, init, n);
      ObserveStep(o, e, n);
      GetLast(items, n);
      AppendAssoc(Lookup(obs, n), AsList(Get(init, n)), if e.0 == n then [e.1] else []);
    }
  }

  /** Regrouping the price lists of one step, over variables. */
  lemma AppendAssoc(a: seq<int>, b: seq<int>, c: seq<int>)
    ensures a + b + c == a + (b + c)
  {
  }

  /** Looking a name up in a dict whose last entry was just added. */
  lemma GetLast(items: Items, n: string)
    requires UniqueKeys(items) && |items| > 0
    ensures var init := items[..|items| - 1];
            var e := items[|items| - 1];
            && AsList(Get(items, n)) == AsList(Get(init, n)) + (if e.0 == n then [e.1] else [])
            && (n in ToMap(items) <==> n in ToMap(init) || n == e.0)
  {
    UniqueInit(items);
    ToMapLast(items);
  }

  /** Recording one entry appends its price to its own name's list only. */
  lemma ObserveStep(o: Observations, e: (string, int), n: string)
    ensures Lookup(Set(o, e.0, Lookup(o, e.0) + [e.1]), n) == Lookup(o, n) + (if e.0 == n then [e.1] else [])
    ensures n in ToMap(Set(o, e.0, Lookup(o, e.0) + [e.1])) <==> n in ToMap(o) || n == e.0
  {
  }

  /** The collection loop gathers, for each name, exactly its prices in file
      order; a name is recorded exactly when some file lists it. */
  lemma {:induction false} GatherLookup(files: seq<Items>, n: string)
    requires AllUnique(files)
    ensures Lookup(Gather(files), n) == PricesOf(files, n)
    ensures n in ToMap(Gather(files)) <==> PricesOf(files, n) != []
    decreases |files|
  {
    if |files| > 0 {
      var init := files[..|files| - 1];
      GatherLookup(init, n);
      ObserveLookup(Gather(init), files[|files| - 1], n);
    }
  }

  // ---------------------------------------------------------------- canonical prices

  /** `min` over the strictly positive prices, or nothing when there are none. */
  function LowestPositive(ps: seq<int>): (r: Option<int>)
    ensures r.Some? <==> exists i :: 0 <= i < |ps| && ps[i] > 0
    ensures r.Some? ==> r.value > 0 && r.value in ps
    ensures r.Some? ==> forall i :: 0 <= i < |ps| && ps[i] > 0 ==> r.value <= ps[i]
  {
    if |ps| == 0 then None
    else
      var init := ps[..|ps| - 1];
      var m := LowestPositive(init);
      var x := ps[|ps| - 1];
      assert forall i :: 0 <= i < |init| ==> init[i] == ps[i];
      if x <= 0 then m
      else if m.None? || x < m.value then Some(x)
      else m
  }

  /** The lowest positive price depends only on which positive prices occur,
      not on their order or repetition. */
  lemma LowestPositiveOrderFree(ps: seq<int>, qs: seq<int>)
    requires forall x :: x > 0 ==> (x in ps <==> x in qs)
    ensures LowestPositive(ps) == LowestPositive(qs)
  {
    var a := LowestPositive(ps);
    var b := LowestPositive(qs);
    if a.Some? {
      assert a.value in qs;
    }
    if b.Some? {
      assert b.value in ps;
    }
  }

  /** `lowest_prices`: the names, in gathering order, that have a positive
      price, each with its lowest positive price. */
  function Canonical(obs: Observations): (r: Items)
    ensures KeySet(r) <= KeySet(obs)
    ensures UniqueKeys(obs) ==> UniqueKeys(r)
  {
    if |obs| == 0 then []
    else
      var init := obs[..|obs| - 1];
      var e := obs[|obs| - 1];
      var rest := Canonical(init);
      assert KeySet(init) <= KeySet(obs) by {
        forall i | 0 <= i < |init|
          ensures init[i].0 in KeySet(obs)
        {
          assert init[i] == obs[i];
        }
      }
      match LowestPositive(e.1)
      case None => rest
      case Some(m) =>
        var r := rest + [(e.0, m)];
        assert UniqueKeys(obs) ==> e.0 !in KeySet(init) by {
          assert forall i :: 0 <= i < |init| ==> init[i] == obs[i];
        }
        assert KeySet(r) == KeySet(rest) + {e.0} by {
          assert forall i :: 0 <= i < |rest| ==> r[i] == rest[i];
          assert r[|rest|].0 == e.0;
        }
        r
  }

  lemma {:induction false} CanonicalAt(obs: Observations, n: string)
    requires UniqueKeys(obs)
    ensures Get(Canonical(obs), n) == LowestPositive(Lookup(obs, n))
    decreases |obs|
  {
    if |obs| > 0 {
      var init := obs[..|obs| - 1];
      var e := obs[|obs| - 1];
      UniqueInitObs(obs);
      CanonicalAt(init, n);
      var rest := Canonical(init);
      assert ToMap(obs) == ToMap(init)[e.0 := e.1];
      match LowestPositive(e.1)
      case None =>
        if n == e.0 {
          assert n !in KeySet(rest);
        }
      case Some(m) =>
        ToMapAppend(rest, (e.0, m));
    }
  }

  lemma UniqueInitObs(obs: Observations)
    requires UniqueKeys(obs) && |obs| > 0
    ensures UniqueKeys(obs[..|obs| - 1])
    ensures obs[|obs| - 1].0 !in ToMap(obs[..|obs| - 1])
  {
    var init := obs[..|obs| - 1];
    assert forall i :: 0 <= i < |init| ==> init[i] == obs[i];
  }

  /** The canonical table computed from the files read. */
  function Table(files: seq<Items>): (r: Items)
    ensures UniqueKeys(r)
  {
    Canonical(Gather(files))
  }

  lemma TableAt(files: seq<Items>, n: string)
    requires AllUnique(files)
    ensures Get(Table(files), n) == LowestPositive(PricesOf(files, n))
  {
    GatherLookup(files, n);
    CanonicalAt(Gather(files), n);
  }

  /** An item is in the canonical table exactly when some file lists it at a
      positive price, and its canonical price is one such price, no larger
      than any other; an item listed only at zero or negative prices is left
      out. */
  lemma TableSpec(files: seq<Items>, n: string)
    requires AllUnique(files)
    ensures n in ToMap(Table(files)) <==> exists i, p :: Offers(files, i, n, p) && p > 0
    ensures n in ToMap(Table(files)) ==>
              var c := ToMap(Table(files))[n];
              && c > 0
              && (exists i :: Offers(files, i, n, c))
              && forall i, p :: Offers(files, i, n, p) && p > 0 ==> c <= p
  {
    var ps := PricesOf(files, n);
    TableAt(files, n);
    PricesOfOffers(files, n);
    var low := LowestPositive(ps);
    if exists i, p :: Offers(files, i, n, p) && p > 0 {
      var i, p :| Offers(files, i, n, p) && p > 0;
      assert p in ps;
    }
    if low.Some? {
      var c := low.value;
      assert c in ps;
      forall i, p | Offers(files, i, n, p) && p > 0
        ensures c <= p
      {
        assert p in ps;
      }
    }
  }

  /** Some file lists `n` at price `p`. */
  ghost predicate Listed(files: seq<Items>, n: string, p: int) {
    exists i :: Offers(files, i, n, p)
  }

  lemma TableOrderFreeAt(files: seq<Items>, others: seq<Items>, n: string)
    requires AllUnique(files) && AllUnique(others)
    requires forall p :: Listed(files, n, p) <==> Listed(others, n, p)
    ensures Get(Table(files), n) == Get(Table(others), n)
  {
    TableAt(files, n);
    TableAt(others, n);
    PricesOfOffers(files, n);
    PricesOfOffers(others, n);
    var ps := PricesOf(files, n);
    var qs := PricesOf(others, n);
    forall x | x > 0
      ensures x in ps <==> x in qs
    {
      assert x in ps <==> Listed(files, n, x);
      assert x in qs <==> Listed(others, n, x);
    }
    LowestPositiveOrderFree(ps, qs);
  }

  /** The canonical table depends only on which file lists which price, not on
      the order the files are read in. */
  lemma TableOrderFree(files: seq<Items>, others: seq<Items>)
    requires AllUnique(files) && AllUnique(others)
    requires forall n, p :: Listed(files, n, p) <==> Listed(others, n, p)
    ensures ToMap(Table(files)) == ToMap(Table(others))
  {
    forall n
      ensures Get(Table(files), n) == Get(Table(others), n)
    {
      TableOrderFreeAt(files, others, n);
    }
    SameLookupsSameMap(Table(files), Table(others));
  }

  lemma ListedInPermutation(files: seq<Items>, others: seq<Items>, n: string, p: int)
    requires multiset(files) == multiset(others)
    requires Listed(files, n, p)
    ensures Listed(others, n, p)
  {
    var i :| Offers(files, i, n, p);
    assert files[i] in multiset(others);
    var j :| 0 <= j < |others| && others[j] == files[i];
    assert Offers(others, j, n, p);
  }

  /** In particular, reading the same files in another order gives the same table. */
  lemma TablePermutation(files: seq<Items>, others: seq<Items>)
    requires AllUnique(files)
    requires multiset(files) == multiset(others)
    ensures ToMap(Table(files)) == ToMap(Table(others))
  {
    assert AllUnique(others) by {
      forall j | 0 <= j < |others|
        ensures UniqueKeys(others[j])
      {
        assert others[j] in multiset(files);
      }
    }
    forall n, p
      ensures Listed(files, n, p) <==> Listed(others, n, p)
    {
      if Listed(files, n, p) {
        ListedInPermutation(files, others, n, p);
      }
      if Listed(others, n, p) {
        ListedInPermutation(others, files, n, p);
      }
    }
    TableOrderFree(files, others);
  }

  // ---------------------------------------------------------------- propagation

  /** Every entry of `table` is already in `m` with the same price. */
  predicate Agrees(m: map<string, int>, table: map<string, int>) {
    forall n :: n in table ==> n in m && m[n] == table[n]
  }

  /** The update loop for one file: each canonical price written into the
      file's entries, added when missing, overwritten when different; the flag
      records whether any entry was added or overwritten. */
  function Propagate(current: Items, table: Items): (r: (Items, bool))
    ensures |r.0| >= |current|
    ensures forall i :: 0 <= i < |current| ==> r.0[i].0 == current[i].0
    ensures UniqueKeys(current) ==> UniqueKeys(r.0)
    decreases |table|
  {
    if |table| == 0 then (current, false)
    else
      var prev := Propagate(current, table[..|table| - 1]);
      var e := table[|table| - 1];
      if e.0 in ToMap(prev.0) && ToMap(prev.0)[e.0] == e.1 then prev
      else (Set(prev.0, e.0, e.1), true)
  }

  /** After propagation a file agrees with the table on every canonical name
      and keeps every other entry: nothing is deleted. */
  lemma {:induction false} PropagateMap(current: Items, table: Items)
    ensures ToMap(Propagate(current, table).0) == ToMap(current) + ToMap(table)
    decreases |table|
  {
    if |table| > 0 {
      var init := table[..|table| - 1];
      var e := table[|table| - 1];
      PropagateMap(current, init);
      assert ToMap(table) == ToMap(init)[e.0 := e.1];
      UnionUpdate(ToMap(current), ToMap(init), e.0, e.1);
      var prev := Propagate(current, init).0;
      if e.0 in ToMap(prev) && ToMap(prev)[e.0] == e.1 {
        assert ToMap(prev)[e.0 := e.1] == ToMap(prev);
      }
    }
  }

  /** Overriding with an updated table is updating the overridden map. */
  lemma UnionUpdate(m: map<string, int>, t: map<string, int>, k: string, v: int)
    ensures m + t[k := v] == (m + t)[k := v]
  {
  }

  /** A file is marked changed exactly when the table holds a name it lacks or
      prices differently. */
  lemma {:induction false} PropagateChanged(current: Items, table: Items)
    requires UniqueKeys(table)
    ensures Propagate(current, table).1 <==> !Agrees(ToMap(current), ToMap(table))
    decreases |table|
  {
    if |table| > 0 {
      var init := table[..|table| - 1];
      var e := table[|table| - 1];
      UniqueInit(table);
      PropagateChanged(current, init);
      PropagateMap(current, init);
      assert ToMap(table) == ToMap(init)[e.0 := e.1];
      if !Agrees(ToMap(current), ToMap(init)) {
        var k :| k in ToMap(init) && !(k in ToMap(current) && ToMap(current)[k] == ToMap(init)[k]);
        assert k != e.0;
        assert k in ToMap(table);
      }
    }
  }

  lemma AgreesUnion(m: map<string, int>, table: map<string, int>)
    ensures Agrees(m, table) <==> m + table == m
  {
    if m + table == m {
      forall n | n in table
        ensures n in m && m[n] == table[n]
      {
        assert (m + table)[n] == table[n];
      }
    }
  }

  /** The changed flag is exactly "the file's map is different afterwards". */
  lemma PropagateChangedIffDifferent(current: Items, table: Items)
    requires UniqueKeys(table)
    ensures Propagate(current, table).1 <==> ToMap(Propagate(current, table).0) != ToMap(current)
  {
    PropagateMap(current, table);
    PropagateChanged(current, table);
    AgreesUnion(ToMap(current), ToMap(table));
  }

  /** Propagating the same table a second time changes nothing. */
  lemma PropagateSettles(current: Items, table: Items)
    requires UniqueKeys(table)
    ensures !Propagate(Propagate(current, table).0, table).1
  {
    var once := Propagate(current, table).0;
    PropagateMap(current, table);
    PropagateChanged(once, table);
    assert Agrees(ToMap(once), ToMap(table));
  }

  // ---------------------------------------------------------------- synchronisation

  /** What a synchronisation does to one file. */
  datatype FileUpdate = Unchanged | Rewritten(text: string)

  /** The result of pressing "synchronize": refused for want of a folder, of
      listing files, or of any item; otherwise the table and one update per file. */
  datatype SyncOutcome =
    | NoFolderSelected
    | NoListingFiles
    | NoItemsFound
    | Synced(table: Items, updates: seq<FileUpdate>)

  /** Every file read in the synchroniser's dialect. */
  function DecodeAll(texts: seq<string>): (files: seq<Items>)
    ensures |files| == |texts|
    ensures forall i :: 0 <= i < |texts| ==> files[i] == Decode(Exact, texts[i])
    ensures AllUnique(files)
  {
    seq(|texts|, i requires 0 <= i < |texts| => Decode(Exact, texts[i]))
  }

  /** One file: rewritten with its propagated entries if anything changed. */
  function UpdateFile(text: string, items: Items, table: Items): (r: FileUpdate)
    ensures UniqueKeys(table) ==> (r.Rewritten? <==> !Agrees(ToMap(items), ToMap(table)))
    ensures r.Rewritten? ==>
              exists u :: r.text == WriteListing(text, u) && ToMap(u) == ToMap(items) + ToMap(table)
  {
    PropagateMap(items, table);
    ChangedWhenDisagreeing(items, table);
    var (updated, changed) := Propagate(items, table);
    if changed then Rewritten(WriteListing(text, updated)) else Unchanged
  }

  lemma ChangedWhenDisagreeing(current: Items, table: Items)
    ensures UniqueKeys(table) ==> (Propagate(current, table).1 <==> !Agrees(ToMap(current), ToMap(table)))
  {
    if UniqueKeys(table) {
      PropagateChanged(current, table);
    }
  }

  /** `synchronize_prices` over the texts of the listing files found. */
  function Synchronize(folderSelected: bool, texts: seq<string>): (r: SyncOutcome)
    ensures r.NoFolderSelected? <==> !folderSelected
    ensures r.NoListingFiles? <==> folderSelected && |texts| == 0
    ensures r.Synced? <==>
              folderSelected && |texts| > 0 && exists i :: 0 <= i < |texts| && Decode(Exact, texts[i]) != []
    ensures r.NoItemsFound? <==>
              folderSelected && |texts| > 0 && forall i :: 0 <= i < |texts| ==> Decode(Exact, texts[i]) == []
    ensures r.Synced? ==> |r.updates| == |texts| && r.table == Table(DecodeAll(texts))
  {
    if !folderSelected then NoFolderSelected
    else if |texts| == 0 then NoListingFiles
    else
      var files := DecodeAll(texts);
      var obs := Gather(files);
      if |obs| == 0 then NoItemsFound
      else
        var table := Canonical(obs);
        Synced(table, seq(|texts|, i requires 0 <= i < |texts| => UpdateFile(texts[i], files[i], table)))
  }

  /** The text of a file after synchronisation. */
  function TextAfter(text: string, u: FileUpdate): string {
    match u
    case Unchanged => text
    case Rewritten(t) => t
  }

  /** Names in the canonical table come from the files, so the rewrite can carry them. */
  lemma TableNamesClean(files: seq<Items>)
    requires AllUnique(files)
    requires forall i :: 0 <= i < |files| ==> CleanItems(files[i])
    ensures CleanItems(Table(files))
  {
    var t := Table(files);
    forall k | 0 <= k < |t|
      ensures CleanName(t[k].0)
    {
      var n := t[k].0;
      assert n in ToMap(t);
      TableSpec(files, n);
      var i, p :| Offers(files, i, n, p) && p > 0;
      var j :| 0 <= j < |files[i]| && files[i][j].0 == n;
      assert CleanName(files[i][j].0);
    }
  }

  lemma DecodedClean(text: string)
    ensures CleanItems(Decode(Exact, text))
  {
    DecodeNamesClean(Exact, text);
    var items := Decode(Exact, text);
    forall k | 0 <= k < |items|
      ensures CleanName(items[k].0)
    {
      assert items[k] in items;
    }
  }

  lemma PropagatedClean(current: Items, table: Items)
    requires CleanItems(current) && CleanItems(table)
    ensures CleanItems(Propagate(current, table).0)
  {
    var r := Propagate(current, table).0;
    PropagateMap(current, table);
    forall k | 0 <= k < |r|
      ensures CleanName(r[k].0)
    {
      var n := r[k].0;
      assert n in ToMap(r);
      if n in KeySet(current) {
        var j :| 0 <= j < |current| && current[j].0 == n;
        assert CleanName(current[j].0);
      } else {
        var j :| 0 <= j < |table| && table[j].0 == n;
        assert CleanName(table[j].0);
      }
    }
  }

  /** After synchronisation every file reads back the canonical price for every
      name in the table and its old price for every other name, and a file is
      rewritten exactly when it did not already agree with the table. */
  lemma SynchronizeFile(folderSelected: bool, texts: seq<string>, i: int)
    requires Synchronize(folderSelected, texts).Synced? && 0 <= i < |texts|
    ensures var r := Synchronize(folderSelected, texts);
            var before := ToMap(Decode(Exact, texts[i]));
            && ToMap(Decode(Exact, TextAfter(texts[i], r.updates[i]))) == before + ToMap(r.table)
            && (r.updates[i].Rewritten? <==> !Agrees(before, ToMap(r.table)))
  {
    var r := Synchronize(folderSelected, texts);
    var files := DecodeAll(texts);
    var items := files[i];
    var table := r.table;
    assert r.updates[i] == UpdateFile(texts[i], items, table);
    forall k | 0 <= k < |files|
      ensures CleanItems(files[k])
    {
      DecodedClean(texts[k]);
    }
    TableNamesClean(files);
    PropagatedClean(items, table);
    PropagateMap(items, table);
    PropagateChanged(items, table);
    AgreesUnion(ToMap(items), ToMap(table));
    var updated := Propagate(items, table).0;
    if Propagate(items, table).1 {
      WriteThenDecode(texts[i], updated);
    }
  }

  /** The session's synchronised items: the table of the last synchronisation
      that got as far as computing one. */
  function SynchronizedAfter(previous: Items, outcome: SyncOutcome): Items {
    if outcome.Synced? then outcome.table else previous
  }

  // ---------------------------------------------------------------- new trader file

  datatype CopyError = MissingFolder | MissingTraderName | NothingSynchronized | OverwriteDeclined

  datatype NewFile = NewFile(name: string, content: string)

  /** `copy_to_new_trader`: refused without a folder, without a (stripped)
      trader name, without synchronised items, or when the file exists and
      overwriting is declined; otherwise the file `BZR_<name>_pq.proj.ini`
      holding only the section with the items sorted by name. */
  function NewTraderFile(folderSelected: bool, traderName: string, synchronized: Items,
                         fileExists: bool, overwrite: bool): (r: Result<NewFile, CopyError>)
    ensures r.Success? <==>
              folderSelected && Strip(traderName) != [] && |synchronized| > 0 && (!fileExists || overwrite)
    ensures (folderSelected && Strip(traderName) != [] && |synchronized| > 0 && fileExists && !overwrite)
              ==> r == Failure(OverwriteDeclined)
  {
    var name := Strip(traderName);
    if !folderSelected then Failure(MissingFolder)
    else if name == [] then Failure(MissingTraderName)
    else if |synchronized| == 0 then Failure(NothingSynchronized)
    else if fileExists && !overwrite then Failure(OverwriteDeclined)
    else Success(NewFile("BZR_" + name + "_pq.proj.ini", Header + "\n" + Render(SortByKey(synchronized))))
  }

  /** The new trader's file reads back as the synchronised items, sorted by name. */
  lemma NewTraderFileReadsBack(folderSelected: bool, traderName: string, synchronized: Items,
                               fileExists: bool, overwrite: bool)
    requires CleanItems(synchronized) && UniqueKeys(synchronized)
    requires NewTraderFile(folderSelected, traderName, synchronized, fileExists, overwrite).Success?
    ensures var content := NewTraderFile(folderSelected, traderName, synchronized, fileExists, overwrite).value.content;
            && Decode(Exact, content) == SortByKey(synchronized)
            && ToMap(Decode(Exact, content)) == ToMap(synchronized)
  {
    SortedClean(synchronized);
    DecodeFresh(SortByKey(synchronized));
  }

  /** A new trader file made right after a synchronisation lists exactly the
      canonical prices. */
  lemma NewTraderAfterSync(texts: seq<string>, previous: Items, traderName: string,
                           fileExists: bool, overwrite: bool)
    requires Synchronize(true, texts).Synced?
    requires var items := SynchronizedAfter(previous, Synchronize(true, texts));
             NewTraderFile(true, traderName, items, fileExists, overwrite).Success?
    ensures var outcome := Synchronize(true, texts);
            var items := SynchronizedAfter(previous, outcome);
            var content := NewTraderFile(true, traderName, items, fileExists, overwrite).value.content;
            ToMap(Decode(Exact, content)) == ToMap(outcome.table)
  {
    var files := DecodeAll(texts);
    forall k | 0 <= k < |files|
      ensures CleanItems(files[k])
    {
      DecodedClean(texts[k]);
    }
    TableNamesClean(files);
    NewTraderFileReadsBack(true, traderName, Table(files), fileExists, overwrite);
  }
}

=== FILE: text.dfy ===
/** The Python `str` operations both applications rely on, stated over
    `seq<char>`: `strip()`, `split(sep)`, `int()` on a decimal literal,
    `str()` of an integer, and the code-point ordering `sorted()` uses. */
module Text {
  import opened Wrappers

  /** `str.isspace()` for one character: the characters `strip()` and `int()` discard. */
  predicate IsSpace(c: char) {
    || c == ' '
    || ('\t' <= c <= '\r')
    || ('\U{1C}' <= c <= '\U{1F}')
    || c == '\U{85}' || c == '\U{A0}' || c == '\U{1680}'
    || ('\U{2000}' <= c <= '\U{200A}')
    || c == '\U{2028}' || c == '\U{2029}' || c == '\U{202F}' || c == '\U{205F}' || c == '\U{3000}'
  }

  /** `str.lstrip()`: the longest suffix of `s` that does not start with a space. */
  function TrimLeft(s: string): (r: string)
    ensures |r| <= |s| && r == s[|s| - |r|..]
    ensures forall i :: 0 <= i < |s| - |r| ==> IsSpace(s[i])
    ensures |r| > 0 ==> !IsSpace(r[0])
  {
    if |s| > 0 && IsSpace(s[0]) then TrimLeft(s[1..]) else s
  }

  /** `str.rstrip()`: the longest prefix of `s` that does not end with a space. */
  function TrimRight(s: string): (r: string)
    ensures |r| <= |s| && r == s[..|r|]
    ensures forall i :: |r| <= i < |s| ==> IsSpace(s[i])
    ensures |r| > 0 ==> !IsSpace(r[|r| - 1])
  {
    if |s| > 0 && IsSpace(s[|s| - 1]) then TrimRight(s[..|s| - 1]) else s
  }

  /** `str.strip()`: a slice of `s` whose two ends are not spaces. */
  function Strip(s: string): (r: string)
    ensures |r| <= |s|
    ensures |r| > 0 ==> !IsSpace(r[0]) && !IsSpace(r[|r| - 1])
    ensures forall c :: c in r ==> c in s
  {
    var t := TrimRight(s);
    var r := TrimLeft(t);
    assert forall c :: c in r ==> c in t;
    r
  }

  /** `strip()` removes white space at the two ends and nothing else: the
      result is a slice of `s` with only spaces on either side of it. */
  lemma StripSlice(s: string) returns (k: nat)
    ensures k + |Strip(s)| <= |s| && Strip(s) == s[k..k + |Strip(s)|]
    ensures forall i :: 0 <= i < k ==> IsSpace(s[i])
    ensures forall i :: k + |Strip(s)| <= i < |s| ==> IsSpace(s[i])
  {
    var t := TrimRight(s);
    var r := TrimLeft(t);
    assert Strip(s) == r;
    k := |t| - |r|;
    SliceOfPrefix(s, t, k);
    forall i | 0 <= i < k
      ensures IsSpace(s[i])
    {
      assert s[i] == t[i];
    }
  }

  lemma SliceOfPrefix(s: string, t: string, k: nat)
    requires |t| <= |s| && t == s[..|t|] && k <= |t|
    ensures t[k..] == s[k..|t|]
  {
  }

  /** A text that `strip()` leaves alone. */
  predicate IsStripped(s: string) {
    |s| == 0 || (!IsSpace(s[0]) && !IsSpace(s[|s| - 1]))
  }

  lemma StripOfStripped(s: string)
    requires IsStripped(s)
    ensures Strip(s) == s
  {
  }

  /** A trailing space never survives `strip()`. */
  lemma StripDropsTrailingSpace(s: string, c: char)
    requires IsSpace(c)
    ensures Strip(s + [c]) == Strip(s)
  {
    assert (s + [c])[..|s|] == s;
  }

  lemma {:induction false} TrimRightCons(c: char, s: string)
    requires IsSpace(c)
    ensures TrimRight([c] + s) == if |TrimRight(s)| == 0 then [] else [c] + TrimRight(s)
    decreases |s|
  {
    if |s| > 0 && IsSpace(s[|s| - 1]) {
      assert ([c] + s)[..|s|] == [c] + s[..|s| - 1];
      TrimRightCons(c, s[..|s| - 1]);
    } else if |s| == 0 {
      assert TrimRight([c]) == TrimRight([]);
    } else {
      assert ([c] + s)[|s|] == s[|s| - 1];
    }
  }

  /** A leading space never survives `strip()`. */
  lemma StripDropsLeadingSpace(c: char, s: string)
    requires IsSpace(c)
    ensures Strip([c] + s) == Strip(s)
  {
    TrimRightCons(c, s);
    if |TrimRight(s)| > 0 {
      assert ([c] + TrimRight(s))[1..] == TrimRight(s);
    }
  }

  /** Index of the first `c` in `s`, or `|s|` when there is none. */
  function FirstIndex(s: string, c: char): (r: nat)
    ensures r <= |s|
    ensures r < |s| ==> s[r] == c
    ensures c !in s[..r]
  {
    if |s| == 0 then 0
    else if s[0] == c then 0
    else
      var k := FirstIndex(s[1..], c);
      assert s[..1 + k] == [s[0]] + s[1..][..k];
      1 + k
  }

  lemma FirstIndexAfter(p: string, c: char, rest: string)
    requires c !in p
    ensures FirstIndex(p + [c] + rest, c) == |p|
  {
    var s := p + [c] + rest;
    var r := FirstIndex(s, c);
    assert s[|p|] == c;
  }

  lemma FirstIndexAbsent(s: string, c: char)
    requires c !in s
    ensures FirstIndex(s, c) == |s|
  {
  }

  /** `sep.join(parts)`. */
  function Join(parts: seq<string>, sep: char): string
  {
    if |parts| == 0 then []
    else if |parts| == 1 then parts[0]
    else parts[0] + [sep] + Join(parts[1..], sep)
  }

  /** `s.split(sep)` for a one-character separator: the pieces between separators,
      empty pieces included, joining back to `s`. */
  function Split(s: string, sep: char): (parts: seq<string>)
    ensures |parts| >= 1
    ensures forall i :: 0 <= i < |parts| ==> sep !in parts[i]
    ensures Join(parts, sep) == s
    decreases |s|
  {
    var i := FirstIndex(s, sep);
    if i == |s| then
      assert s[..i] == s;
      [s]
    else
      var rest := Split(s[i + 1..], sep);
      assert ([s[..i]] + rest)[1..] == rest;
      assert s == s[..i] + [sep] + s[i + 1..];
      [s[..i]] + rest
  }

  /** Splitting at the first separator: the piece before it, then the pieces
      of the rest. */
  lemma SplitCons(a: string, sep: char, b: string)
    requires sep !in a
    ensures Split(a + [sep] + b, sep) == [a] + Split(b, sep)
  {
    var s := a + [sep] + b;
    FirstIndexAfter(a, sep, b);
    assert s[..|a|] == a;
    assert s[|a| + 1..] == b;
  }

  /** Splitting undoes joining pieces that hold no separator. */
  lemma {:induction false} SplitJoin(parts: seq<string>, sep: char)
    requires |parts| >= 1
    requires forall i :: 0 <= i < |parts| ==> sep !in parts[i]
    ensures Split(Join(parts, sep), sep) == parts
    decreases |parts|
  {
    if |parts| == 1 {
      FirstIndexAbsent(parts[0], sep);
    } else {
      var rest := Join(parts[1..], sep);
      FirstIndexAfter(parts[0], sep, rest);
      var s := parts[0] + [sep] + rest;
      assert s[..|parts[0]|] == parts[0];
      assert s[|parts[0]| + 1..] == rest;
      SplitJoin(parts[1..], sep);
      assert [parts[0]] + parts[1..] == parts;
    }
  }

  // ---------------------------------------------------------------- integers

  predicate IsDigit(c: char) {
    '0' <= c <= '9'
  }

  predicate AllDigits(s: string) {
    forall i :: 0 <= i < |s| ==> IsDigit(s[i])
  }

  function DigitValue(c: char): nat
    requires IsDigit(c)
  {
    (c as int) - ('0' as int)
  }

  function DigitChar(d: nat): (c: char)
    requires d < 10
    ensures IsDigit(c) && DigitValue(c) == d
  {
    (('0' as int) + d) as char
  }

  /** The value of a run of decimal digits, most significant first. */
  function DigitsValue(ds: string): nat
    requires AllDigits(ds)
  {
    if |ds| == 0 then 0 else DigitsValue(ds[..|ds| - 1]) * 10 + DigitValue(ds[|ds| - 1])
  }

  /** The body Python's `int()` accepts in base 10: digits, with single
      underscores allowed only between two digits. */
  predicate IsDecimalBody(s: string) {
    && |s| > 0
    && IsDigit(s[0]) && IsDigit(s[|s| - 1])
    && (forall i :: 0 <= i < |s| ==> IsDigit(s[i]) || s[i] == '_')
    && (forall i :: 0 <= i < |s| - 1 ==> s[i] == '_' ==> s[i + 1] != '_')
  }

  function DropUnderscores(s: string): (r: string)
    requires forall i :: 0 <= i < |s| ==> IsDigit(s[i]) || s[i] == '_'
    ensures AllDigits(r)
    ensures AllDigits(s) ==> r == s
  {
    if |s| == 0 then []
    else if s[0] == '_' then DropUnderscores(s[1..])
    else [s[0]] + DropUnderscores(s[1..])
  }

  /** The ASCII information separators U+001C to U+001F: `str.isspace()`, and so
      `strip()`, counts them as white space, but `int()` skips only the other
      white space around the digits and rejects these. */
  predicate IsInfoSeparator(c: char) {
    '\U{1C}' <= c <= '\U{1F}'
  }

  predicate NoInfoSeparator(s: string) {
    forall i :: 0 <= i < |s| ==> !IsInfoSeparator(s[i])
  }

  /** `int()` on a text already stripped: one optional sign, then a decimal body. */
  function ParseDecimal(t: string): (r: Option<int>)
    ensures r.Some? ==>
              && |t| > 0 && IsDigit(t[|t| - 1])
              && forall i :: 0 <= i < |t| ==> IsDigit(t[i]) || t[i] == '_' || (i == 0 && (t[i] == '-' || t[i] == '+'))
    ensures r.Some? && r.value < 0 ==> t[0] == '-'
    ensures |t| > 0 && AllDigits(t) ==> r == Some(DigitsValue(t))
  {
    if |t| > 0 && (t[0] == '-' || t[0] == '+') then
      var body := t[1..];
      if IsDecimalBody(body) then
        var v: int := DigitsValue(DropUnderscores(body));
        Some(if t[0] == '-' then -v else v)
      else None
    else if IsDecimalBody(t) then Some(DigitsValue(DropUnderscores(t)))
    else None
  }

  /** Python's `int(s)`: surrounding whitespace is ignored, one optional sign,
      then a decimal body; anything else is a `ValueError`, modelled as `None`.
      An information separator anywhere in `s` is such an error: around the
      digits `int()` does not skip it, and between them it is no digit. */
  function ParseInt(s: string): (r: Option<int>)
    ensures r.Some? ==> NoInfoSeparator(s)
    ensures r.Some? ==>
              var t := Strip(s);
              && |t| > 0 && IsDigit(t[|t| - 1])
              && forall i :: 0 <= i < |t| ==> IsDigit(t[i]) || t[i] == '_' || (i == 0 && (t[i] == '-' || t[i] == '+'))
    ensures r.Some? && r.value < 0 ==> Strip(s)[0] == '-'
    ensures NoInfoSeparator(s) && |Strip(s)| > 0 && AllDigits(Strip(s)) ==> r == Some(DigitsValue(Strip(s)))
  {
    if NoInfoSeparator(s) then ParseDecimal(Strip(s)) else None
  }

  /** `str(n)` for a natural number: its shortest decimal digits. */
  function NatToString(n: nat): (r: string)
    ensures |r| > 0 && AllDigits(r)
    ensures DigitsValue(r) == n
    ensures |r| > 1 ==> r[0] != '0'
  {
    if n < 10 then [DigitChar(n)]
    else
      var r := NatToString(n / 10) + [DigitChar(n % 10)];
      assert r[..|r| - 1] == NatToString(n / 10);
      r
  }

  /** `str(n)` for an integer, with a leading `-` when negative. */
  function IntToString(n: int): (r: string)
    ensures |r| > 0 && IsDigit(r[|r| - 1])
    ensures n < 0 <==> r[0] == '-'
    ensures forall c :: c in r ==> IsDigit(c) || c == '-'
  {
    if n < 0 then "-" + NatToString(-n) else NatToString(n)
  }

  /** `int(str(n)) == n`. */
  lemma ParseIntToString(n: int)
    ensures ParseInt(IntToString(n)) == Some(n)
  {
    WrittenIntStripped(n);
    DecimalOfString(n);
    WrittenIntPlain(n);
  }

  lemma WrittenIntPlain(n: int)
    ensures NoInfoSeparator(IntToString(n))
  {
    var s := IntToString(n);
    forall i | 0 <= i < |s|
      ensures !IsInfoSeparator(s[i])
    {
      assert s[i] in s;
    }
  }

  lemma DecimalOfString(n: int)
    ensures ParseDecimal(IntToString(n)) == Some(n)
  {
    var s := IntToString(n);
    if n < 0 {
      var d := NatToString(-n);
      assert s[1..] == d;
      assert IsDecimalBody(d);
    } else {
      assert IsDecimalBody(s);
    }
  }

  /** `str(n)` has no white space to strip. */
  lemma WrittenIntStripped(n: int)
    ensures Strip(IntToString(n)) == IntToString(n)
  {
    var s := IntToString(n);
    assert s[0] in s;
    StripOfStripped(s);
  }

  lemma NoInfoSeparatorSlice(s: string, k: nat)
    requires NoInfoSeparator(s) && k <= |s|
    ensures NoInfoSeparator(s[k..])
  {
    forall m | 0 <= m < |s| - k
      ensures !IsInfoSeparator(s[k..][m])
    {
      assert s[k..][m] == s[k + m];
    }
  }

  /** Stripping first changes nothing for `int()` unless an information
      separator is about: `int(s.strip()) == int(s)`. */
  lemma StrippedParseInt(s: string)
    requires NoInfoSeparator(s)
    ensures ParseInt(Strip(s)) == ParseInt(s)
  {
    var t := Strip(s);
    forall i | 0 <= i < |t|
      ensures !IsInfoSeparator(t[i])
    {
      assert t[i] in t;
    }
    StripOfStripped(t);
  }

  // ---------------------------------------------------------------- ordering

  /** Python's `<` on `str`: lexicographic by code point, a proper prefix first. */
  predicate StrLess(a: string, b: string) {
    |b| > 0 && (|a| == 0 || a[0] < b[0] || (a[0] == b[0] && StrLess(a[1..], b[1..])))
  }

  lemma {:induction false} StrLessIrreflexive(a: string)
    ensures !StrLess(a, a)
  {
    if |a| > 0 {
      StrLessIrreflexive(a[1..]);
    }
  }

  lemma {:induction false} StrLessTransitive(a: string, b: string, c: string)
    requires StrLess(a, b) && StrLess(b, c)
    ensures StrLess(a, c)
  {
    if |a| > 0 && a[0] == b[0] && b[0] == c[0] {
      StrLessTransitive(a[1..], b[1..], c[1..]);
    }
  }

  lemma {:induction false} StrLessTotal(a: string, b: string)
    requires a != b
    ensures StrLess(a, b) || StrLess(b, a)
  {
    if |a| > 0 && |b| > 0 && a[0] == b[0] {
      assert a == [a[0]] + a[1..] && b == [b[0]] + b[1..];
      StrLessTotal(a[1..], b[1..]);
    }
  }
}

=== FILE: wrappers.dfy ===
/** Failure-carrying datatypes shared by the listing and inventory models. */
module Wrappers {

  /** A value that may be absent (a Python `None`, a failed parse, a missing file). */
  datatype Option<+T> = None | Some(value: T)

  /** The outcome of an operation that can be refused with a reason. */
  datatype Result<+R, +E> = Success(value: R) | Failure(error: E)
}
